=== FILE: README.md ===
# Investment Portfolio Tracker: a Dafny model of its core

The Investment Portfolio Tracker keeps a list of holdings per portfolio. Each holding has:
- a symbol, a quantity and an average purchase price;
- an asset type;
- optional annotations and free-form per-type details;
- a last fetched market price.

This project models the parts of the tracker that are pure data transformations, and proves what they promise:

- **Dashboard aggregation** (`Aggregate`, `Ranking`, `Currency`).
  - Computes total invested, current value, profit and loss, and the P/L percentage.
  - Valuation uses `current_price || average_price`.
  - Buckets the allocation by asset type and computes the percentages on the allocation card.
  - Picks the three top performers.
  - Converts amounts into the display currency.
- **Saving a holding** (`Save`, `HoldingForm`, `Flow`).
  - The add/edit dialog's form state is a JavaScript object.
  - On save, the page turns the form into a request body: numbers are coerced, empty optional fields become `null`.
  - The request goes to the add route or the update route depending on the form's `id`.
- **Backend routes** (`PortfolioRouter`, `PriceRefresh`).
  - Request validation with its defaults.
  - The rows that add and update write; delete and listing.
  - The two-attempt portfolio creation.
  - Price refresh: which holdings it prices, which price it takes, and how it counts updates and errors.
- **Chat panel** (`Chat`): the ticker extracted from a message, and the reply shown for an analyser outcome.
- **Rebalancing summary** (`Rebalance`): one entry per holding with a symbol, and an error entry when the analysis fails.

Shared vocabulary lives in these modules:
- `Wrappers`: `Option` and `Result`.
- `Json`: JSON-like values with JavaScript and Python truthiness.
- `Text`: ASCII upper-casing, ECMAScript `trim`, `split(' ')[0]`.
- `Numeric`: JavaScript `Number` on strings and values.
- `Records`: the stored holding.

The outside world is passed in as parameters:
- the database is a map from id to holding, and an insert's outcome is a function argument;
- the market-price source is a function from symbol to quote;
- the market analyser is a function from symbol to result record;
- a write failure is a function from holding id to an optional error text.

Because the price source and the analyser are functions, every lookup of the same symbol gets the same answer within one refresh or one rebalancing run.

## Behaviours of the code worth knowing

Each of these follows from the code as written, and the named lemma shows it.

- **Valuation fallback.** The valuation price is `current_price || average_price` (`scripts_frontend/app/page.tsx:48`), not `??`. A current price of 0 values the holding at its average price (`Aggregate.FallbackValuation`).
- **Allocation shares can exceed 100%.** With a negative bucket (a negative quantity, say) the shown percentages sum to more than 100, because the negative bucket is hidden but still counted in the current value (`Aggregate.SharesCanExceed100` exhibits 200%).
- **Update keeps more than the id.** The update row leaves the owning portfolio, the last fetched price and its timestamp as they were (`PortfolioRouter.Updated`).
- **Portfolio creation retries.** When the first insert fails, portfolio creation inserts once more without the placeholder user (`PortfolioRouter.CreatePortfolio`).
- **"Current Value" column.** The portfolio list prints `quantity * average_price` under "Current Value" (`scripts_frontend/app/page.tsx:327`), which is the invested amount (`Aggregate.ListedValueIsInvested`).
- **Null asset type.** The page counts a holding with a null asset type as STOCK (`Aggregate.TypeKey`). The price refresh reads the stored null and does not price it (`PriceRefresh.Eligible`).
- **Zero target lost on re-save.** A target value of 0 is sent as 0. Opening that holding again and saving it sends `null`, because 0 is falsy (`Save.ZeroTargetCleared`, `Flow.ZeroTargetLostOnSave`).
- **Empty form.** Submitting the dialog untouched adds a stock with an empty symbol, no units and price 0 (`Flow.EmptyFormAddsBlankStock`).

## Model

| member | source | states |
|---|---|---|
| Aggregate.TotalPLPercent | scripts_frontend/app/page.tsx:51-52 | 0 when nothing positive is invested; otherwise the percentage times the invested total is 100 times the P/L; positive exactly when both invested total and P/L are positive |
| Aggregate.ValuationPrice | scripts_frontend/app/page.tsx:48 | a truthy current price always wins; otherwise the holding is valued at its average price, so the valuation price is 0 only when the average price is |
| Aggregate.TotalInvested | scripts_frontend/app/page.tsx:46 | computes the invested total (`totalInvested`); its properties are stated by `Aggregate.InvestedNonNegative`, `Aggregate.GainsSumToTotalPL` and `Aggregate.Pair` |
| Aggregate.CurrentValue | scripts_frontend/app/page.tsx:47-50 | computes the current value (`currentValue`); its properties are stated by `Aggregate.FallbackValuation`, `Aggregate.AllocationTotal` and `Aggregate.Pair` |
| Aggregate.TotalPL | scripts_frontend/app/page.tsx:51 | computes `totalPL`; `Aggregate.GainsSumToTotalPL` shows it is the sum of the per-holding gains |
| Aggregate.TypeKey | scripts_frontend/app/page.tsx:56 | a holding with a non-empty asset type is keyed by that type; any other holding is keyed STOCK, so a key is never empty |
| Aggregate.Allocation | scripts_frontend/app/page.tsx:55-60 | computes `allocation`; its buckets are described by `Aggregate.AllocationBuckets`, `Aggregate.AllocationTotal` and `Aggregate.AllocationNonNegative` |
| Aggregate.Percent | scripts_frontend/app/page.tsx:246 | a shown percentage times the current value is 100 times the bucket value; there is no finite percentage exactly when the current value is 0 |
| Aggregate.InvestedNonNegative | scripts_frontend/app/page.tsx:46 | with no negative quantity or average price, the invested total is never negative |
| Aggregate.GainsSumToTotalPL | scripts_frontend/app/page.tsx:267-271 | the per-holding gains of the top-performers card add up to current value minus invested total |
| Aggregate.FallbackValuation | scripts_frontend/app/page.tsx:47-50 | a null or zero current price values a holding exactly as if its current price were its average price: worth equals invested, gain is 0 |
| Aggregate.ListedValueIsInvested | scripts_frontend/app/page.tsx:327 | the listed "Current Value" is quantity times average price, and equals the holding's worth only when the quantity is 0 or the valuation price is the average price |
| Aggregate.Credit | scripts_frontend/app/page.tsx:58 | crediting a type adds a bucket only when the type has none yet |
| Aggregate.CreditKeys | scripts_frontend/app/page.tsx:58 | crediting a type opens its bucket if missing and keeps bucket keys distinct |
| Aggregate.CreditValues | scripts_frontend/app/page.tsx:58 | crediting adds the amount to that type's bucket and changes no other bucket |
| Aggregate.CreditTotal | scripts_frontend/app/page.tsx:58 | crediting raises the sum of all buckets by the amount |
| Aggregate.AllocationBuckets | scripts_frontend/app/page.tsx:55-60 | the allocation has one distinct bucket per asset type present (a missing or empty type keyed as STOCK), each holding the summed worth of that type's holdings |
| Aggregate.AllocationTotal | scripts_frontend/app/page.tsx:55-60 | the allocation buckets add up to the portfolio's current value |
| Aggregate.AllocationNonNegative | scripts_frontend/app/page.tsx:55-60 | holdings of non-negative worth fill only non-negative buckets |
| Aggregate.Shares | scripts_frontend/app/page.tsx:245-246 | the allocation card shows at most one line per bucket |
| Aggregate.SharesShown | scripts_frontend/app/page.tsx:245-246 | the card shows exactly the buckets with a positive value, each as value over current value times 100 (none when the current value is 0) |
| Aggregate.SharesSum | scripts_frontend/app/page.tsx:245-246 | with no negative bucket the shown percentages add up to the bucket total over the current value, times 100 |
| Aggregate.SharesSumTo100 | scripts_frontend/app/page.tsx:245-246 | non-negative buckets that add up to a positive current value are shown as percentages summing to 100 |
| Aggregate.AllocationSharesSumTo100 | scripts_frontend/app/page.tsx:245-246 | when every holding is worth something non-negative and the portfolio is worth something, the allocation card sums to 100% |
| Aggregate.SharesCanExceed100 | scripts_frontend/app/page.tsx:245-246 | a negative bucket is hidden but still counted, so a card can read 200% |
| Aggregate.EmptyPortfolio | scripts_frontend/app/page.tsx:45-60 | an empty portfolio has zero totals, a 0 percentage and no allocation lines |
| Aggregate.Pair | scripts_frontend/app/page.tsx:45-60 | for two holdings the totals are the sums of their own amounts, and the allocation credits the second after the first |
| Aggregate.WorkedExample | scripts_frontend/app/page.tsx:45-52 | a STOCK and a GOLD holding give invested 2000, value 2400, P/L 400 and 20% |
| Ranking.Annotate | scripts_frontend/app/page.tsx:267-272 | each holding is paired with its own gain and list position, one entry per holding |
| Ranking.Insert | scripts_frontend/app/page.tsx:273 | insertion adds exactly the one element to the list's multiset |
| Ranking.InsertRanks | scripts_frontend/app/page.tsx:273 | inserting an element later in list order than all others keeps the list ranked |
| Ranking.StableSort | scripts_frontend/app/page.tsx:273 | the sort is a permutation of its input |
| Ranking.StableSortRanks | scripts_frontend/app/page.tsx:273 | a list in list order sorts into non-increasing gain, equal gains keeping list order |
| Ranking.SortedAnnotation | scripts_frontend/app/page.tsx:267-273 | the sorted holdings are all of them, ranked |
| Ranking.TopPerformersRank | scripts_frontend/app/page.tsx:273-274 | the card lists min(3, number of holdings) entries, ranked by gain with ties in list order |
| Ranking.TopPerformersFromList | scripts_frontend/app/page.tsx:267-274 | every listed entry is a holding of the list with its own gain |
| Ranking.TopPerformersBeatTheRest | scripts_frontend/app/page.tsx:273-274 | every holding left off the card ranks after every holding on it |
| Ranking.TopPerformers | scripts_frontend/app/page.tsx:267-274 | computes the top-performers card; stated by `Ranking.TopPerformersRank`, `Ranking.TopPerformersFromList` and `Ranking.TopPerformersBeatTheRest` |
| Currency.Convert | scripts_frontend/app/page.tsx:38-39 | the displayed amount divided by the currency's rate is the dollar amount; dollars display unchanged |
| Currency.CodesComplete | scripts_frontend/app/page.tsx:13-19 | the currency menu lists each of the five currencies exactly once |
| Currency.ConvertKeepsSign | scripts_frontend/app/page.tsx:13-19 | every rate is positive, so conversion keeps the sign the page colours gains by, and zero stays zero |
| Currency.ConvertLinear | scripts_frontend/app/page.tsx:36-41 | conversion distributes over sums and differences |
| Currency.ConvertMonotone | scripts_frontend/app/page.tsx:36-41 | conversion keeps the order of amounts, both ways |
| Currency.ConvertedProfit | scripts_frontend/app/page.tsx:51 | the converted P/L is the converted current value less the converted invested total |
| Numeric.ParseUnsigned | scripts_frontend/app/page.tsx:112-114 | an unsigned decimal reads as a non-negative number; a string reads at all exactly when it is digits and points with at least one digit and at most one point, so "1.2.3", "1..5" and "." are NaN |
| Numeric.ParseNumeric | scripts_frontend/app/page.tsx:112 | `Number` on a string; stated by `Numeric.BlankIsZero`, `Numeric.TrimmedAlike`, `Numeric.DigitsParse`, `Numeric.DecimalParse`, `Numeric.SignedNumeral`, `Numeric.NegativeDigitsParse`, `Numeric.NonNumeralIsNaN`, `Numeric.TwoPointsIsNaN` and `Numeric.NoDigitIsNaN` |
| Numeric.ToNumber | scripts_frontend/app/page.tsx:112-114 | `Number` on a form value; its effect on the body is stated by `Save.SanitizeNumbers` and `Save.SanitizeTarget` |
| Numeric.BlankIsZero | scripts_frontend/app/page.tsx:112-113 | `Number` reads a blank or all-white-space string as 0 |
| Numeric.NonNumeralIsNaN | scripts_frontend/app/page.tsx:112 | a string holding any character other than digits, points, signs and white space reads as NaN |
| Numeric.TwoPointsIsNaN | scripts_frontend/app/page.tsx:112 | a string with two decimal points, anywhere and whatever surrounds them, reads as NaN |
| Numeric.NoDigitIsNaN | scripts_frontend/app/page.tsx:112 | a string that is not blank and holds no digit, such as "-", "+" or ".", reads as NaN |
| Numeric.TrimmedAlike | scripts_frontend/app/page.tsx:112 | surrounding white space never changes what a string reads as |
| Numeric.DigitsParse | scripts_frontend/app/page.tsx:112 | a run of digits reads as its decimal value |
| Numeric.FractionParse | scripts_frontend/app/page.tsx:112-113 | every unsigned decimal `a.b` with at least one digit reads, as the digit string `ab` divided by 10 to the number of fraction digits |
| Numeric.DecimalParse | scripts_frontend/app/page.tsx:112-113 | `Number` reads every decimal `a.b` with at least one digit as `ab` divided by 10 to the number of fraction digits |
| Numeric.SignedNumeral | scripts_frontend/app/page.tsx:112-113 | a '+' in front of an unsigned numeral keeps its reading, a '-' negates it, and NaN stays NaN |
| Numeric.NegativeDigitsParse | scripts_frontend/app/page.tsx:112 | a minus sign before digits negates their value |
| Numeric.UnsignedExample | scripts_frontend/app/page.tsx:112 | "12.5" reads as 12.5 |
| Numeric.ZeroParses | scripts_frontend/app/page.tsx:114 | "0" reads as 0 |
| Numeric.LonePointExample | scripts_frontend/app/page.tsx:112 | a lone "." reads as NaN |
| Save.Sanitize | scripts_frontend/app/page.tsx:110-120 | the request body has every form key plus the eight rewritten keys, and no other |
| Save.NumberOrZero | scripts_frontend/app/page.tsx:112-113 | a form number, or 0 when it reads as NaN or 0; stated by `Save.SanitizeNumbers`, `Save.NonNumericQuantityIsZero` and `Save.TwoPointQuantityIsZero` |
| Save.TargetOrNull | scripts_frontend/app/page.tsx:114 | the target rewrite; stated by `Save.SanitizeTarget`, `Save.ZeroTargetCleared` and `Save.ZeroStringTarget` |
| Save.UnrewrittenKept | scripts_frontend/app/page.tsx:110-111 | id, symbol, asset type and details are not rewritten keys, so each reaches the body as entered |
| Save.SanitizeKeepsOthers | scripts_frontend/app/page.tsx:110-111 | every key the page does not rewrite reaches the body as entered |
| Save.SanitizeNumbers | scripts_frontend/app/page.tsx:112-113 | quantity and average price are sent as the number the entry reads as, or 0 when it reads as NaN |
| Save.NonNumericQuantityIsZero | scripts_frontend/app/page.tsx:112 | a quantity with a non-numeric character is sent as 0 |
| Save.TwoPointQuantityIsZero | scripts_frontend/app/page.tsx:112 | a quantity with two decimal points, such as "1.2.3" or "1..5", is sent as 0 |
| Save.SanitizeOptionals | scripts_frontend/app/page.tsx:115-119 | an empty optional text field is sent as null and a filled one as entered |
| Save.SanitizeTarget | scripts_frontend/app/page.tsx:114 | an empty target is sent as null, a filled one as its number, or NaN when it is not numeric |
| Save.SanitizeStable | scripts_frontend/app/page.tsx:110-120 | sanitising a request body again changes nothing unless its target is 0 or NaN |
| Save.ZeroTargetCleared | scripts_frontend/app/page.tsx:114 | a target that reads as 0 is sent as 0, and sanitising that body again sends null |
| Save.ZeroStringTarget | scripts_frontend/app/page.tsx:114 | the string "0" is truthy and reads as 0 |
| Save.SaveHolding | scripts_frontend/app/page.tsx:106-128 | nothing is sent without a portfolio; a truthy id sends an update for that id, otherwise an add to the portfolio, both carrying the sanitised body |
| Text.ToUpper | scripts_frontend/app/page.tsx:153 | upper-casing keeps the length, leaves no lower-case letter, keeps every other character and shifts each lower-case letter to its capital |
| Text.ToUpperIdempotent | backend/routers/portfolio.py:64 | upper-casing twice is upper-casing once |
| Text.ToUpperKeepsSpace | scripts_frontend/app/page.tsx:153 | upper-casing leaves white space exactly where it was |
| Text.TrimStart | scripts_frontend/app/page.tsx:153 | the result is a suffix of the input that does not start with white space |
| Text.TrimEnd | scripts_frontend/app/page.tsx:153 | the result is a prefix of the input that does not end with white space |
| Text.Trim | scripts_frontend/app/page.tsx:153 | the trimmed string is no longer than the input and neither starts nor ends with white space |
| Text.TrimStartDrops | scripts_frontend/app/page.tsx:153 | trimming the start drops only white space |
| Text.TrimEndDrops | scripts_frontend/app/page.tsx:153 | trimming the end drops only white space |
| Text.TrimBounds | scripts_frontend/app/page.tsx:153 | the trimmed string is a slice between a white-space prefix and a white-space suffix |
| Text.TrimEmptyIffAllSpace | scripts_frontend/app/page.tsx:153 | a string trims to nothing exactly when it is all white space |
| Text.FirstWord | scripts_frontend/app/page.tsx:153 | the first word is a space-free prefix that stops at the first space |
| Chat.TickerShape | scripts_frontend/app/page.tsx:153 | the ticker has no space, starts the trimmed upper-cased message, stops at its first space, and is the whole of it when it has none |
| Chat.TickerUpper | scripts_frontend/app/page.tsx:153 | the ticker has no lower-case letter |
| Chat.TickerEmptyIffBlank | scripts_frontend/app/page.tsx:153 | the ticker is empty exactly when the message is all white space |
| Chat.Ticker | scripts_frontend/app/page.tsx:153 | the ticker sent for a message; stated by `Chat.TickerShape`, `Chat.TickerUpper` and `Chat.TickerEmptyIffBlank` |
| Chat.ErrorShownVerbatim | scripts_frontend/app/page.tsx:157-158 | an analyser error is shown verbatim behind "Error: ", whatever the analysis says |
| Chat.ReplyWithoutError | scripts_frontend/app/page.tsx:159-166 | without an error the reply is the analysis when present, else the result as JSON; a thrown call shows the fallback text |
| Chat.Reply | scripts_frontend/app/page.tsx:156-166 | the reply for an analyser outcome; stated by `Chat.ErrorShownVerbatim` and `Chat.ReplyWithoutError` |
| Chat.Submit | scripts_frontend/app/page.tsx:145-153 | an empty input sends nothing; otherwise the message joins the history, the input clears, the panel waits and the ticker is requested |
| Chat.Receive | scripts_frontend/app/page.tsx:163-168 | the reply joins the history and the panel stops waiting, the input untouched |
| Chat.Exchange | scripts_frontend/app/page.tsx:145-169 | one exchange appends exactly the user's message and then the agent's reply to the history |
| Chat.FirstExchange | scripts_frontend/app/page.tsx:71-75 | starting from the panel as it opens, with the agent's greeting, the first exchange leaves exactly the greeting, the typed message and the reply, with the input cleared and the panel no longer waiting |
| Chat.BlankMessageSent | scripts_frontend/app/page.tsx:146-153 | a blank but non-empty message is still sent, with an empty ticker |
| HoldingForm.Init | scripts_frontend/components/HoldingModal.tsx:52-61 | with no holding the form is the empty form; with one, every field is copied and details default to an empty object when falsy |
| HoldingForm.InitKeepsHolding | scripts_frontend/components/HoldingModal.tsx:53-57 | opening a holding keeps every field but details as loaded |
| HoldingForm.Change | scripts_frontend/components/HoldingModal.tsx:63-65 | exactly the changed key takes the new value; every other key, details included, keeps its value |
| HoldingForm.ChangeDetail | scripts_frontend/components/HoldingModal.tsx:67-72 | exactly the changed detail takes the new value; other details and every other top-level key keep theirs |
| HoldingForm.AssetTypeChangeKeepsDetails | scripts_frontend/components/HoldingModal.tsx:93-95 | choosing another asset type sets it and keeps every detail entered so far |
| HoldingForm.DetailEditsCommute | scripts_frontend/components/HoldingModal.tsx:67-72 | edits to two different details give the same form in either order |
| HoldingForm.AssetFields | scripts_frontend/components/HoldingModal.tsx:78 | the shown detail fields are the table entry for the form's asset type, or none for a type without an entry |
| HoldingForm.AssetTypeChoices | scripts_frontend/components/HoldingModal.tsx:98-100 | the menu offers six distinct types, and only REAL_ESTATE and FD have no detail fields |
| HoldingForm.SpecificNamesDistinct | scripts_frontend/components/HoldingModal.tsx:18-45 | within each asset type the detail fields have distinct names |
| HoldingForm.CommonFieldsAreSanitised | scripts_frontend/components/HoldingModal.tsx:9-16 | the annotation fields are exactly the keys the save rewrites, other than the two numbers |
| PortfolioRouter.Validate | backend/routers/portfolio.py:11-22 | a body validates exactly when it is well formed; the request then carries the body's symbol, quantity and price, its type or STOCK when the key is missing, its details or none when missing, and each annotation written back as JSON is the body's value with NaN read as null |
| PortfolioRouter.RequestDefaults | backend/routers/portfolio.py:15-22 | a body with only the required fields gets type STOCK, no annotations and empty details |
| PortfolioRouter.NaNTargetIsNone | backend/routers/portfolio.py:19 | a NaN target arrives as null and validates to no target |
| PortfolioRouter.AddRow | backend/routers/portfolio.py:62-75 | the add row belongs to the path's portfolio, upper-cases symbol and type, and copies every other field |
| PortfolioRouter.UpdateRow | backend/routers/portfolio.py:91-103 | the update row is the add row without a portfolio, for any portfolio |
| PortfolioRouter.RowNormalised | backend/routers/portfolio.py:64-67 | stored symbols and types are already upper case |
| PortfolioRouter.Updated | backend/routers/portfolio.py:105 | an updated holding keeps its id, owner and last fetched price, and takes every written column |
| PortfolioRouter.UpdateIdempotent | backend/routers/portfolio.py:88-108 | applying the same update twice is applying it once |
| PortfolioRouter.FirstRow | backend/routers/portfolio.py:78 | reading the first row fails exactly when there is none |
| PortfolioRouter.AddHolding | backend/routers/portfolio.py:59-80 | an invalid body is rejected; a failed insert changes nothing; otherwise the new row is stored under a fresh id and returned |
| PortfolioRouter.UpdateHolding | backend/routers/portfolio.py:88-108 | an invalid body is rejected; a failure or an unknown id changes nothing and errors; otherwise only that row is rewritten and returned |
| PortfolioRouter.DeleteHolding | backend/routers/portfolio.py:82-86 | delete removes exactly that id and returns the removed row, if any |
| PortfolioRouter.HoldingsOf | backend/routers/portfolio.py:53-57 | the listing holds exactly the stored holdings of that portfolio |
| PortfolioRouter.UpdateKeepsOwner | backend/routers/portfolio.py:91-105 | an update keeps the set of ids and every portfolio's listing, and touches no other row |
| PortfolioRouter.AddJoinsPortfolio | backend/routers/portfolio.py:62-78 | a successful add lists the new holding under its portfolio and leaves every other portfolio's listing unchanged |
| PortfolioRouter.DeleteLeavesOthers | backend/routers/portfolio.py:82-86 | a delete removes one holding from its portfolio's listing and nothing else |
| PortfolioRouter.CreatePortfolio | backend/routers/portfolio.py:33-51 | the first insert carries the placeholder user; a second insert without a user happens exactly when the first fails; the route fails only when both do, with the second error |
| PriceRefresh.ChoosePriceOrder | backend/routers/portfolio.py:133-144 | a raising fast lookup is the error; otherwise a truthy fast price wins; otherwise a raising slow lookup is the error, else currentPrice when the key is present and regularMarketPrice only when it is absent |
| PriceRefresh.Eligible | backend/routers/portfolio.py:126-130 | a holding is priced exactly when its stored asset type is one of the four with a ticker and its symbol is not empty; stated by `PriceRefresh.UnlistedNeverPriced` and `PriceRefresh.RefreshBound` |
| PriceRefresh.ChoosePrice | backend/routers/portfolio.py:131-144 | the price taken from a quote, or the error raised; stated by `PriceRefresh.ChoosePriceOrder` |
| PriceRefresh.EffectOf | backend/routers/portfolio.py:126-153 | one holding is written exactly when it is priced, its price is truthy and its write goes through, with that price; it gives an error exactly when it is priced and its lookup, or the write of its truthy price, raised |
| PriceRefresh.Refresh | backend/routers/portfolio.py:125-153 | the writes and errors of the whole loop; stated by `PriceRefresh.RefreshCounts`, `PriceRefresh.WritesArePriced`, `PriceRefresh.ErrorsNameSymbols` and `PriceRefresh.AllSucceed` |
| PriceRefresh.RefreshPrices | backend/routers/portfolio.py:118-155 | the loop produces the writes and errors of the holding-by-holding refresh; `updated` counts exactly the holdings priced and written, and there is one error per priced holding whose lookup or write raised |
| PriceRefresh.RefreshBound | backend/routers/portfolio.py:146-155 | updates plus errors never exceed the number of priced holdings |
| PriceRefresh.WritesArePriced | backend/routers/portfolio.py:126-151 | every write goes to an eligible holding of the list, with the truthy price its quote gave, and only when that holding's write went through |
| PriceRefresh.ErrorsNameSymbols | backend/routers/portfolio.py:131-153 | every error is `Failed <symbol>: <e>` for an eligible holding whose lookup raised `e`, or whose truthy price's write raised `e` |
| PriceRefresh.RefreshCounts | backend/routers/portfolio.py:125-155 | the number of writes is the number of eligible holdings with a truthy price and a successful write; the number of errors is the number of eligible holdings whose lookup raised or whose write raised |
| PriceRefresh.AllSucceed | backend/routers/portfolio.py:125-155 | when every eligible holding gets a usable price and every write succeeds, each is updated and there is no error |
| PriceRefresh.UnlistedNeverPriced | backend/routers/portfolio.py:126-130 | fixed deposits, chit funds and real estate are never priced |
| PriceRefresh.ApplyWrites | backend/routers/portfolio.py:147-150 | the ids stay the same; a row no write names is unchanged; a written row gets the price of the last write to it and the refresh time, and keeps every other field |
| PriceRefresh.WritesTouchPricesOnly | backend/routers/portfolio.py:147-150 | a refresh changes only price and timestamp, so invested amounts stay the same |
| Rebalance.WithSymbol | agents/portfolio_manager.py:11-14 | exactly the holdings with a truthy symbol are kept |
| Rebalance.AdviceFor | agents/portfolio_manager.py:19-31 | the entry for one analysis; stated by `Rebalance.ErrorEntryIff` |
| Rebalance.Recommendations | agents/portfolio_manager.py:11-31 | the recommendation list; stated by `Rebalance.OneEntryPerSymbol` and `Rebalance.SymbolLessIgnored` |
| Rebalance.SuggestRebalancing | agents/portfolio_manager.py:33 | the summary is wrapped even when there are no holdings |
| Rebalance.OneEntryPerSymbol | agents/portfolio_manager.py:11-31 | one entry per holding with a symbol, in input order, each the advice for that holding's analysis |
| Rebalance.ErrorEntryIff | agents/portfolio_manager.py:19-31 | an entry is an error entry exactly when the analysis has an error key, with that error as the reason and the holding's symbol |
| Rebalance.SymbolLessIgnored | agents/portfolio_manager.py:12-14 | dropping holdings without a symbol changes no entry |
| Flow.EditRoutesToUpdate | scripts_frontend/app/page.tsx:122-124 | saving an opened holding updates that holding's id with the sanitised form |
| Flow.NewFormRoutesToAdd | scripts_frontend/app/page.tsx:125-127 | saving a new holding's form adds to the portfolio |
| Flow.ResavedBodyValidates | scripts_frontend/app/page.tsx:110-120 | an opened holding saved as is validates to its own fields, when it is normalised and has no empty text or zero target |
| Flow.RepeatedRequestIsNoOp | backend/routers/portfolio.py:88-108 | a request repeating a stored, normalised holding leaves the table as it was and returns that holding |
| Flow.UnchangedSaveIsNoOp | backend/routers/portfolio.py:88-108 | opening a stored holding and saving it unchanged leaves the table as it was |
| Flow.ZeroTargetLostOnSave | scripts_frontend/app/page.tsx:114 | a stored target of 0 is sent as null when the holding is saved again |
| Flow.BlankNumbersAreZero | scripts_frontend/app/page.tsx:112-113 | blank quantity and price are sent as 0 |
| Flow.UnsetAnnotationsAreNull | scripts_frontend/app/page.tsx:114-119 | unset annotations are sent as null |
| Flow.BlankFormIsBlankHolding | scripts_frontend/app/page.tsx:110-120 | a form with blank numbers and no annotations validates to no units, price 0 and no annotations |
| Flow.EmptyFormAddsBlankStock | scripts_frontend/components/HoldingModal.tsx:58-59 | the untouched new-holding form validates to a stock with an empty symbol, no units and price 0 |

## Left out

- Rendering, CSS, `toLocaleString` and `toFixed` formatting, and the hydration guard (`mounted`): presentation only. `Currency.Convert` is the amount before locale formatting.
- React state scheduling, `async`/`await` ordering, `localStorage`, portfolio initialisation on mount, and `confirm()`: browser plumbing.
- The `@/lib/api` client, FastAPI routing, main.py and debug_api.py: network I/O. The routes are modelled as functions of their inputs and of the store.
- The Supabase client: the store is a map from id to holding. The id a new row receives is a parameter that must not already be in the store. The order of listed rows is left out; listings are maps.
- agents/market_analyst.py and backend/skills/stock_data.py: they wrap yfinance and an LLM. The analyser and the price source are function parameters. The time of a price update is a parameter.
- Repeated lookups of one symbol: the source asks yfinance (`yf.Ticker(symbol)`) and the analyser once per holding. Two holdings with the same symbol could therefore get different answers, for example one rate-limited and one priced, or two different LLM replies. The model gives every holding with that symbol the same answer.
- The listing of all portfolios (`get_portfolios`): it returns the table as is and has no logic.
- Floating-point rounding: money is `real`. A NaN appears only where the page can produce one from text: `Number` of a non-numeric string. A NaN quantity, price or stored current price is not modelled.
- Text.ToUpper: upper-cases ASCII letters only, not the full Unicode case mapping of `toUpperCase` and `upper()`.
- Numeric.ParseUnsigned: does not read exponents, hexadecimal, binary or octal literals, or "Infinity". Such strings read as NaN here, while `Number` reads them as numbers.
- PortfolioRouter.Validate: accepts only the value kinds the page sends (strings, numbers, null, objects). Pydantic's lax coercions, such as a numeric string for a float field or a boolean for a number, are left out and treated as invalid.
- HoldingForm.AssetFields: looks up only the four table keys. Keys inherited from JavaScript's object prototype (`constructor`, `toString`, …) are left out.
- HoldingForm.DetailsOf: spreading a non-object `details` value into the new details adds no entry. Spreading a string's characters is not modelled.
- Rebalance.SuggestRebalancing: the contract states only the empty case. What the summary holds is stated by `Rebalance.OneEntryPerSymbol`.
- PriceRefresh.ApplyWrites: the timestamp is the refresh time passed in as `now`; `datetime.now().isoformat()` is not modelled.
- `handleSubmit` passes the form to the page unchanged. The model therefore applies `Save.SaveHolding` directly to the form (`Flow.EditRoutesToUpdate`, `Flow.NewFormRoutesToAdd`).

=== FILE: aggregate.dfy ===
/**
 * The dashboard's reductions over the list of holdings: invested capital, current
 * value, profit and loss, its percentage, the allocation by asset type and the
 * allocation percentages shown on screen.
 */
module Aggregate {
  import opened Wrappers
  import opened Records

  /** The price a holding is valued at: `current_price || average_price`. A null
      or zero current price falls back to the average price. */
  function ValuationPrice(h: Holding): (r: real)
    ensures h.currentPrice.Some? && h.currentPrice.value != 0.0 ==> r == h.currentPrice.value
    ensures r == h.averagePrice || (h.currentPrice == Some(r) && r != 0.0)
    ensures r == 0.0 ==> h.averagePrice == 0.0
  {
    if h.currentPrice.Some? && h.currentPrice.value != 0.0 then h.currentPrice.value else h.averagePrice
  }

  /** Capital put into one holding. */
  function Invested(h: Holding): real {
    h.quantity * h.averagePrice
  }

  /** What one holding is worth at its valuation price. */
  function Worth(h: Holding): real {
    h.quantity * ValuationPrice(h)
  }

  /** Profit or loss of one holding, as the top-performers card computes it. */
  function Gain(h: Holding): real {
    ValuationPrice(h) * h.quantity - h.averagePrice * h.quantity
  }

  /** What the portfolio list prints under "Current Value": quantity times the
      average price, not the valuation price. */
  function ListedValue(h: Holding): real {
    h.quantity * h.averagePrice
  }

  /** `holdings.reduce((sum, h) => sum + h.quantity * h.average_price, 0)`: a left
      fold from 0. */
  function TotalInvested(hs: seq<Holding>): real {
    if hs == [] then 0.0 else TotalInvested(hs[..|hs| - 1]) + Invested(hs[|hs| - 1])
  }

  /** The current-value reduce: each holding at its valuation price, left fold from 0. */
  function CurrentValue(hs: seq<Holding>): real {
    if hs == [] then 0.0 else CurrentValue(hs[..|hs| - 1]) + Worth(hs[|hs| - 1])
  }

  function TotalPL(hs: seq<Holding>): real {
    CurrentValue(hs) - TotalInvested(hs)
  }

  /** Profit or loss as a percentage of invested capital, 0 when nothing positive is
      invested (no division by zero). */
  function TotalPLPercent(hs: seq<Holding>): (r: real)
    ensures TotalInvested(hs) <= 0.0 ==> r == 0.0
    ensures TotalInvested(hs) > 0.0 ==> r * TotalInvested(hs) == TotalPL(hs) * 100.0
    ensures r > 0.0 <==> TotalInvested(hs) > 0.0 && TotalPL(hs) > 0.0
  {
    var invested := TotalInvested(hs);
    if invested > 0.0 then TotalPL(hs) / invested * 100.0 else 0.0
  }

  /** Invested capital is never negative when no quantity or average price is. */
  lemma {:induction false} InvestedNonNegative(hs: seq<Holding>)
    requires forall i :: 0 <= i < |hs| ==> hs[i].quantity >= 0.0 && hs[i].averagePrice >= 0.0
    ensures TotalInvested(hs) >= 0.0
  {
    if hs != [] {
      InvestedNonNegative(hs[..|hs| - 1]);
    }
  }

  /** Sum of the per-holding gains the top-performers card shows, as an independent
      left fold. */
  function GainTotal(hs: seq<Holding>): real {
    if hs == [] then 0.0 else GainTotal(hs[..|hs| - 1]) + Gain(hs[|hs| - 1])
  }

  /** The per-holding gains add up to the portfolio's total P/L. */
  lemma {:induction false} GainsSumToTotalPL(hs: seq<Holding>)
    ensures GainTotal(hs) == TotalPL(hs)
  {
    if hs != [] {
      GainsSumToTotalPL(hs[..|hs| - 1]);
    }
  }

  /** Asset types the way the allocation reduce keys them: `asset_type || 'STOCK'`. */
  function TypeKey(h: Holding): (r: string)
    ensures r != ""
    ensures h.assetType.Some? && h.assetType.value != "" ==> r == h.assetType.value
    ensures r == "STOCK" || h.assetType == Some(r)
  {
    if h.assetType.Some? && h.assetType.value != "" then h.assetType.value else "STOCK"
  }

  /** One allocation bucket, in first-seen order. `Object.entries` reports that order
      for the types the holding dialog offers, none of which is integer-like; a type
      such as "7" stored by another client would be listed first, and no contract
      here states the order of the card's lines. */
  datatype Entry = Entry(assetType: string, value: real)

  function Keys(a: seq<Entry>): set<string> {
    if a == [] then {} else {a[0].assetType} + Keys(a[1..])
  }

  predicate DistinctKeys(a: seq<Entry>) {
    forall i, j :: 0 <= i < j < |a| ==> a[i].assetType != a[j].assetType
  }

  /** `acc[type] || 0`: the bucket's value, or 0 when there is no bucket. */
  function ValueOf(a: seq<Entry>, t: string): real {
    if a == [] then 0.0 else if a[0].assetType == t then a[0].value else ValueOf(a[1..], t)
  }

  /** The sum of every bucket. */
  function Total(a: seq<Entry>): real {
    if a == [] then 0.0 else a[0].value + Total(a[1..])
  }

  /** `acc[type] = (acc[type] || 0) + value`: add to an existing bucket in place, or
      open a new one at the end. */
  function Credit(a: seq<Entry>, t: string, v: real): (r: seq<Entry>)
    ensures |r| == if t in Keys(a) then |a| else |a| + 1
  {
    if a == [] then [Entry(t, v)]
    else if a[0].assetType == t then [Entry(t, a[0].value + v)] + a[1..]
    else [a[0]] + Credit(a[1..], t, v)
  }

  /** Crediting opens the bucket for `t` if needed and keeps buckets distinct. */
  lemma {:induction false} CreditKeys(a: seq<Entry>, t: string, v: real)
    ensures Keys(Credit(a, t, v)) == Keys(a) + {t}
    ensures DistinctKeys(a) ==> DistinctKeys(Credit(a, t, v))
  {
    var r := Credit(a, t, v);
    if a == [] {
      assert r[1..] == [];
    } else if a[0].assetType == t {
      assert r[1..] == a[1..];
    } else {
      CreditKeys(a[1..], t, v);
      assert r[1..] == Credit(a[1..], t, v);
      if DistinctKeys(a) {
        var rest := r[1..];
        NotInKeys(a[1..], a[0].assetType);
        forall j | 0 <= j < |rest|
          ensures rest[j].assetType != a[0].assetType
        {
          KeysHasEntry(rest, j);
        }
      }
    }
  }

  lemma {:induction false} KeysHasEntry(a: seq<Entry>, i: nat)
    requires i < |a|
    ensures a[i].assetType in Keys(a)
  {
    if i > 0 {
      KeysHasEntry(a[1..], i - 1);
    }
  }

  lemma {:induction false} NotInKeys(a: seq<Entry>, t: string)
    requires forall i :: 0 <= i < |a| ==> a[i].assetType != t
    ensures t !in Keys(a)
  {
    if a != [] {
      NotInKeys(a[1..], t);
    }
  }

  /** Crediting adds `v` to the bucket for `t` and to no other bucket. */
  lemma {:induction false} CreditValues(a: seq<Entry>, t: string, v: real)
    ensures ValueOf(Credit(a, t, v), t) == ValueOf(a, t) + v
    ensures forall u :: u != t ==> ValueOf(Credit(a, t, v), u) == ValueOf(a, u)
  {
    var r := Credit(a, t, v);
    if a == [] {
      assert r[1..] == [];
    } else if a[0].assetType == t {
      assert r[1..] == a[1..];
    } else {
      CreditValues(a[1..], t, v);
      assert r[1..] == Credit(a[1..], t, v);
    }
  }

  lemma {:induction false} CreditTotal(a: seq<Entry>, t: string, v: real)
    ensures Total(Credit(a, t, v)) == Total(a) + v
  {
    if a != [] && a[0].assetType != t {
      CreditTotal(a[1..], t, v);
      assert ([a[0]] + Credit(a[1..], t, v))[1..] == Credit(a[1..], t, v);
    } else if a != [] {
      assert ([Entry(t, a[0].value + v)] + a[1..])[1..] == a[1..];
    } else {
      assert [Entry(t, v)][1..] == [];
    }
  }

  /** Worth of the holdings whose allocation key is `t`, summed independently of
      the bucket list. */
  function TypeValue(hs: seq<Holding>, t: string): real {
    if hs == [] then 0.0
    else TypeValue(hs[..|hs| - 1], t) + (if TypeKey(hs[|hs| - 1]) == t then Worth(hs[|hs| - 1]) else 0.0)
  }

  /** The allocation keys of the holdings, collected independently of the buckets. */
  function TypesOf(hs: seq<Holding>): set<string> {
    if hs == [] then {} else TypesOf(hs[..|hs| - 1]) + {TypeKey(hs[|hs| - 1])}
  }

  /** The allocation reduce, one `Credit` per holding from left to right. */
  function Allocation(hs: seq<Holding>): seq<Entry> {
    if hs == [] then []
    else Credit(Allocation(hs[..|hs| - 1]), TypeKey(hs[|hs| - 1]), Worth(hs[|hs| - 1]))
  }

  /** One bucket per asset type present, no two buckets for the same type, and each
      bucket holds the worth of exactly the holdings of its type. */
  lemma {:induction false} AllocationBuckets(hs: seq<Holding>)
    ensures DistinctKeys(Allocation(hs))
    ensures Keys(Allocation(hs)) == TypesOf(hs)
    ensures forall t :: ValueOf(Allocation(hs), t) == TypeValue(hs, t)
  {
    if hs != [] {
      var init := hs[..|hs| - 1];
      var last := hs[|hs| - 1];
      AllocationBuckets(init);
      CreditKeys(Allocation(init), TypeKey(last), Worth(last));
      CreditValues(Allocation(init), TypeKey(last), Worth(last));
    }
  }

  /** The buckets add up to the portfolio's current value. */
  lemma {:induction false} AllocationTotal(hs: seq<Holding>)
    ensures Total(Allocation(hs)) == CurrentValue(hs)
  {
    if hs != [] {
      var init := hs[..|hs| - 1];
      var last := hs[|hs| - 1];
      AllocationTotal(init);
      CreditTotal(Allocation(init), TypeKey(last), Worth(last));
    }
  }

  /** A bucket's own value is what `ValueOf` reads for its key. */
  lemma {:induction false} ValueOfEntry(a: seq<Entry>, i: nat)
    requires DistinctKeys(a) && i < |a|
    ensures ValueOf(a, a[i].assetType) == a[i].value
  {
    if i > 0 {
      ValueOfEntry(a[1..], i - 1);
    }
  }

  lemma {:induction false} TypeValueNonNegative(hs: seq<Holding>, t: string)
    requires forall h :: h in hs ==> Worth(h) >= 0.0
    ensures TypeValue(hs, t) >= 0.0
  {
    if hs != [] {
      TypeValueNonNegative(hs[..|hs| - 1], t);
    }
  }

  /** A displayed allocation line: the asset type and its share of current value in
      percent. `None` is the non-finite result of dividing by a zero current value. */
  datatype Share = Share(assetType: string, percent: Option<real>)

  function Percent(v: real, currentValue: real): (r: Option<real>)
    ensures r.None? <==> currentValue == 0.0
    ensures r.Some? ==> r.value * currentValue == v * 100.0
  {
    if currentValue == 0.0 then None else Some(v / currentValue * 100.0)
  }

  /** The sum of the displayed percentages (a non-finite one counts as 0). */
  function PercentTotal(r: seq<Share>): real {
    if r == [] then 0.0 else r[0].percent.GetOr(0.0) + PercentTotal(r[1..])
  }

  /** The allocation card: only buckets with a positive value are shown, in bucket
      order, each as its percentage of current value. */
  function Shares(a: seq<Entry>, currentValue: real): (r: seq<Share>)
    ensures |r| <= |a|
  {
    if a == [] then []
    else
      var rest := Shares(a[1..], currentValue);
      if a[0].value > 0.0 then [Share(a[0].assetType, Percent(a[0].value, currentValue))] + rest else rest
  }

  /** Exactly the buckets with a positive value are shown: every line comes from
      such a bucket, and every such bucket has its line. */
  lemma {:induction false} SharesShown(a: seq<Entry>, currentValue: real)
    ensures forall s :: s in Shares(a, currentValue) ==>
      exists e :: e in a && e.value > 0.0 && s == Share(e.assetType, Percent(e.value, currentValue))
    ensures forall e :: e in a && e.value > 0.0 ==> Share(e.assetType, Percent(e.value, currentValue)) in Shares(a, currentValue)
  {
    if a != [] {
      SharesShown(a[1..], currentValue);
      assert forall e :: e in a[1..] ==> e in a;
      assert forall e :: e in a ==> e == a[0] || e in a[1..];
    }
  }

  lemma ScaleAdd(x: real, y: real, c: real)
    requires c != 0.0
    ensures x / c * 100.0 + y / c * 100.0 == (x + y) / c * 100.0
  {
  }

  /** With no negative bucket, the displayed percentages add up to the whole. */
  lemma {:induction false} SharesSum(a: seq<Entry>, currentValue: real)
    requires currentValue != 0.0
    requires forall i :: 0 <= i < |a| ==> a[i].value >= 0.0
    ensures PercentTotal(Shares(a, currentValue)) == Total(a) / currentValue * 100.0
  {
    if a != [] {
      var rest := Shares(a[1..], currentValue);
      var x := a[0].value;
      SharesSum(a[1..], currentValue);
      if x > 0.0 {
        assert ([Share(a[0].assetType, Percent(x, currentValue))] + rest)[1..] == rest;
      }
      ScaleAdd(x, Total(a[1..]), currentValue);
    }
  }

  /** Holdings that are each worth something non-negative fill non-negative buckets. */
  lemma AllocationNonNegative(hs: seq<Holding>)
    requires forall h :: h in hs ==> Worth(h) >= 0.0
    ensures forall i :: 0 <= i < |Allocation(hs)| ==> Allocation(hs)[i].value >= 0.0
  {
    var a := Allocation(hs);
    AllocationBuckets(hs);
    forall i | 0 <= i < |a|
      ensures a[i].value >= 0.0
    {
      ValueOfEntry(a, i);
      TypeValueNonNegative(hs, a[i].assetType);
    }
  }

  /** Non-negative buckets that add up to the current value are shown as
      percentages adding up to 100. */
  lemma SharesSumTo100(a: seq<Entry>, currentValue: real)
    requires currentValue > 0.0 && Total(a) == currentValue
    requires forall i :: 0 <= i < |a| ==> a[i].value >= 0.0
    ensures PercentTotal(Shares(a, currentValue)) == 100.0
  {
    SharesSum(a, currentValue);
    DivSelf(currentValue);
  }

  lemma DivSelf(c: real)
    requires c != 0.0
    ensures c / c * 100.0 == 100.0
  {
  }

  /** When every holding is worth something non-negative and the portfolio is worth
      something, the allocation percentages on screen add up to exactly 100. */
  lemma AllocationSharesSumTo100(hs: seq<Holding>)
    requires forall h :: h in hs ==> Worth(h) >= 0.0
    requires CurrentValue(hs) > 0.0
    ensures PercentTotal(Shares(Allocation(hs), CurrentValue(hs))) == 100.0
  {
    AllocationNonNegative(hs);
    AllocationTotal(hs);
    SharesSumTo100(Allocation(hs), CurrentValue(hs));
  }
  /** A holding whose current price is null or 0 is valued exactly as if its
      current price were its average price, and shows no gain. */
  lemma FallbackValuation(h: Holding)
    requires h.currentPrice.None? || h.currentPrice == Some(0.0)
    ensures Worth(h) == Worth(h.(currentPrice := Some(h.averagePrice)))
    ensures Worth(h) == Invested(h)
    ensures Gain(h) == 0.0
  {
  }

  /** The "Current Value" printed in the portfolio list is the invested amount; it
      matches the valuation only when the quantity is 0 or the valuation price is
      the average price. */
  lemma ListedValueIsInvested(h: Holding)
    ensures ListedValue(h) == Invested(h)
    ensures ListedValue(h) == Worth(h) <==> h.quantity == 0.0 || ValuationPrice(h) == h.averagePrice
  {
    assert Worth(h) - ListedValue(h) == h.quantity * (ValuationPrice(h) - h.averagePrice);
  }

  /** An empty portfolio sums to zero everywhere and has no allocation to show. */
  lemma EmptyPortfolio()
    ensures TotalInvested([]) == 0.0 && CurrentValue([]) == 0.0 && TotalPL([]) == 0.0
    ensures TotalPLPercent([]) == 0.0
    ensures Allocation([]) == [] && Shares(Allocation([]), 0.0) == []
  {
  }

  lemma Pair(h1: Holding, h2: Holding)
    ensures TotalInvested([h1, h2]) == Invested(h1) + Invested(h2)
    ensures CurrentValue([h1, h2]) == Worth(h1) + Worth(h2)
    ensures Allocation([h1, h2]) == Credit([Entry(TypeKey(h1), Worth(h1))], TypeKey(h2), Worth(h2))
  {
    var hs := [h1, h2];
    assert hs[..1] == [h1];
    assert [h1][..0] == [];
    assert TotalInvested([h1]) == Invested(h1);
    assert CurrentValue([h1]) == Worth(h1);
    assert Allocation([h1]) == [Entry(TypeKey(h1), Worth(h1))];
  }

  /** Two holdings: 10 STOCK units bought at 100 now at 150, 5 GOLD units bought at
      200 now at 180. */
  lemma WorkedExample()
    ensures var hs := [Holding("a", None, "A", 10.0, 100.0, Some("STOCK"), NoAnnotations, map[], Some(150.0), None),
                       Holding("b", None, "B", 5.0, 200.0, Some("GOLD"), NoAnnotations, map[], Some(180.0), None)];
      && TotalInvested(hs) == 2000.0
      && CurrentValue(hs) == 2400.0
      && TotalPL(hs) == 400.0
      && TotalPLPercent(hs) == 20.0
  {
    var h1 := Holding("a", None, "A", 10.0, 100.0, Some("STOCK"), NoAnnotations, map[], Some(150.0), None);
    var h2 := Holding("b", None, "B", 5.0, 200.0, Some("GOLD"), NoAnnotations, map[], Some(180.0), None);
    Pair(h1, h2);
  }

  /** With a negative bucket the percentages on screen can add up to more than 100:
      2 STOCK units at 100 and -1 GOLD unit at 100 show STOCK alone, at 200%. */
  lemma SharesCanExceed100()
    ensures var hs := [Holding("a", None, "A", 2.0, 100.0, Some("STOCK"), NoAnnotations, map[], None, None),
                       Holding("b", None, "B", -1.0, 100.0, Some("GOLD"), NoAnnotations, map[], None, None)];
      && CurrentValue(hs) == 100.0
      && Shares(Allocation(hs), CurrentValue(hs)) == [Share("STOCK", Some(200.0))]
      && PercentTotal(Shares(Allocation(hs), CurrentValue(hs))) == 200.0
  {
    var h1 := Holding("a", None, "A", 2.0, 100.0, Some("STOCK"), NoAnnotations, map[], None, None);
    var h2 := Holding("b", None, "B", -1.0, 100.0, Some("GOLD"), NoAnnotations, map[], None, None);
    Pair(h1, h2);
    var a := Allocation([h1, h2]);
    assert [Entry("STOCK", 200.0)][1..] == [];
    assert a == [Entry("STOCK", 200.0), Entry("GOLD", -100.0)];
    assert a[1..][1..] == [];
    assert Shares(a, 100.0) == [Share("STOCK", Some(200.0))];
    assert [Share("STOCK", Some(200.0))][1..] == [];
  }
}

=== FILE: chat.dfy ===
/**
 * The market-analyst chat panel: the message history, the input box, and what
 * one press of Send does with them. The analyser call itself is outside the
 * model; its outcome is a parameter.
 */
module Chat {
  import opened Wrappers
  import opened Text

  datatype Role = User | Agent

  datatype Message = Message(role: Role, content: string)

  datatype Panel = Panel(messages: seq<Message>, input: string, loading: bool)

  /** The panel as it first appears: one greeting from the agent. */
  const Opened: Panel :=
    Panel([Message(Agent, "Hello! I am your Portfolio AI. Ask me about any stock!")], "", false)

  /** The ticker sent for a message: upper-cased, trimmed, cut at the first space. */
  function Ticker(msg: string): string {
    FirstWord(Trim(ToUpper(msg)))
  }

  /** The ticker holds no space, starts the trimmed message and runs to its first
      space or to its end. */
  lemma TickerShape(msg: string)
    ensures ' ' !in Ticker(msg)
    ensures Ticker(msg) == Trim(ToUpper(msg))[..|Ticker(msg)|]
    ensures |Ticker(msg)| < |Trim(ToUpper(msg))| ==> Trim(ToUpper(msg))[|Ticker(msg)|] == ' '
    ensures ' ' !in Trim(ToUpper(msg)) ==> Ticker(msg) == Trim(ToUpper(msg))
  {
    var t := Trim(ToUpper(msg));
    var f := FirstWord(t);
    assert |f| < |t| ==> t[|f|] in t;
  }

  /** The ticker has no lower-case letter. */
  lemma TickerUpper(msg: string)
    ensures forall k :: 0 <= k < |Ticker(msg)| ==> !IsLower(Ticker(msg)[k])
  {
    var u := ToUpper(msg);
    var i, j := TrimBounds(u);
    var f := Ticker(msg);
    forall k | 0 <= k < |f|
      ensures !IsLower(f[k])
    {
      TickerChar(u, Trim(u), f, i, j, k);
    }
  }

  /** A character of a prefix of a slice is a character of the whole. */
  lemma TickerChar(u: string, t: string, f: string, i: nat, j: nat, k: nat)
    requires i <= j <= |u| && t == u[i..j]
    requires |f| <= |t| && f == t[..|f|] && k < |f|
    ensures i + k < |u| && f[k] == u[i + k]
  {
    assert f[k] == t[k];
  }

  /** The ticker is empty exactly when the message is blank. */
  lemma {:induction false} TickerEmptyIffBlank(msg: string)
    ensures Ticker(msg) == [] <==> AllSpace(msg)
  {
    var u := ToUpper(msg);
    TrimEmptyIffAllSpace(u);
    assert AllSpace(u) <==> AllSpace(msg) by {
      forall i | 0 <= i < |msg|
        ensures IsSpace(u[i]) <==> IsSpace(msg[i])
      {
        ToUpperKeepsSpace(msg, i);
      }
    }
  }

  /** What the analyser call gave back. `error` and `analysis` are the result's
      fields when it has them; `json` is the result serialised by `JSON.stringify`. */
  datatype Trend = Trend(error: Option<string>, analysis: Option<string>, json: string)

  datatype Outcome = Answered(result: Trend) | Threw

  predicate Filled(field: Option<string>) {
    field.Some? && field.value != ""
  }

  /** The agent's reply for an outcome. */
  function Reply(o: Outcome): string {
    match o
    case Threw => "Something went wrong."
    case Answered(t) =>
      if Filled(t.error) then "Error: " + t.error.value
      else if Filled(t.analysis) then t.analysis.value
      else t.json
  }

  /** An analyser error is shown verbatim behind an "Error: " prefix, and it wins
      over any analysis the result also carries. */
  lemma ErrorShownVerbatim(t: Trend)
    requires Filled(t.error)
    ensures |Reply(Answered(t))| == 7 + |t.error.value|
    ensures Reply(Answered(t))[..7] == "Error: "
    ensures Reply(Answered(t))[7..] == t.error.value
  {
  }

  /** Without an error the reply is the analysis text, or the whole result as JSON
      when there is none; a call that throws gets the fixed apology. */
  lemma ReplyWithoutError(o: Outcome)
    requires o.Answered? ==> !Filled(o.result.error)
    ensures o == Threw ==> Reply(o) == "Something went wrong."
    ensures o.Answered? && !Filled(o.result.analysis) ==> Reply(o) == o.result.json
    ensures o.Answered? && Filled(o.result.analysis) ==> Reply(o) == o.result.analysis.value
  {
  }

  /** Pressing Send: an empty input does nothing; otherwise the message joins the
      history, the input is cleared, the panel waits, and the ticker is sent. */
  function Submit(p: Panel): (r: (Panel, Option<string>))
    ensures p.input == "" ==> r == (p, None)
    ensures p.input != "" ==> r.1 == Some(Ticker(p.input))
    ensures p.input != "" ==> r.0.messages == p.messages + [Message(User, p.input)]
    ensures p.input != "" ==> r.0.input == "" && r.0.loading
  {
    if p.input == "" then (p, None)
    else (Panel(p.messages + [Message(User, p.input)], "", true), Some(Ticker(p.input)))
  }

  /** The analyser's outcome arrives: the reply joins the history and the panel stops
      waiting. Whatever was typed meanwhile stays in the input. */
  function Receive(p: Panel, o: Outcome): (r: Panel)
    ensures r.messages == p.messages + [Message(Agent, Reply(o))]
    ensures r.input == p.input && !r.loading
  {
    Panel(p.messages + [Message(Agent, Reply(o))], p.input, false)
  }

  /** One exchange appends exactly the user's message and then the agent's reply,
      keeping the earlier history. */
  lemma Exchange(p: Panel, o: Outcome)
    requires p.input != ""
    ensures var q := Receive(Submit(p).0, o);
      && |q.messages| == |p.messages| + 2
      && q.messages[..|p.messages|] == p.messages
      && q.messages[|p.messages|] == Message(User, p.input)
      && q.messages[|p.messages| + 1] == Message(Agent, Reply(o))
      && q.input == "" && !q.loading
  {
    var q := Receive(Submit(p).0, o);
    assert q.messages == p.messages + [Message(User, p.input)] + [Message(Agent, Reply(o))];
  }

  /** The first exchange after the panel opens: the greeting stays first, followed by
      the typed message and the agent's reply, and the panel is ready for the next. */
  lemma FirstExchange(msg: string, o: Outcome)
    requires msg != ""
    ensures var q := Receive(Submit(Opened.(input := msg)).0, o);
      && q.messages == [Opened.messages[0], Message(User, msg), Message(Agent, Reply(o))]
      && q.messages[0].role == Agent
      && q.input == "" && !q.loading
  {
    Exchange(Opened.(input := msg), o);
  }

  /** A blank but non-empty message is still sent, with an empty ticker. */
  lemma BlankMessageSent(p: Panel)
    requires p.input != "" && AllSpace(p.input)
    ensures Submit(p).1 == Some("")
  {
    TickerEmptyIffBlank(p.input);
  }
}

=== FILE: currency.dfy ===
/**
 * The display currency of the dashboard: every amount is held in US dollars and
 * multiplied by a fixed rate when it is shown.
 */
module Currency {
  import opened Records
  import Aggregate

  datatype Code = USD | EUR | GBP | INR | JPY

  /** The selectable currencies, in the order the currency menu lists them. */
  const Codes: seq<Code> := [USD, EUR, GBP, INR, JPY]

  /** Units of the currency per US dollar. */
  function Rate(c: Code): real {
    match c
    case USD => 1.0
    case EUR => 0.92
    case GBP => 0.78
    case INR => 83.5
    case JPY => 155.0
  }

  /** The amount `formatMoney` renders, before locale formatting. */
  function Convert(amount: real, c: Code): (r: real)
    ensures r / Rate(c) == amount
    ensures c == USD ==> r == amount
  {
    amount * Rate(c)
  }

  /** The menu lists each currency exactly once, and every currency is listed. */
  lemma CodesComplete(c: Code)
    ensures c in Codes
    ensures forall i, j :: 0 <= i < j < |Codes| ==> Codes[i] != Codes[j]
  {
  }

  /** Every rate is positive, so conversion keeps the sign the page colours by. */
  lemma ConvertKeepsSign(amount: real, c: Code)
    ensures Rate(c) > 0.0
    ensures Convert(amount, c) >= 0.0 <==> amount >= 0.0
    ensures Convert(amount, c) == 0.0 <==> amount == 0.0
  {
  }

  /** Conversion is linear: sums and differences convert term by term. */
  lemma ConvertLinear(x: real, y: real, c: Code)
    ensures Convert(x + y, c) == Convert(x, c) + Convert(y, c)
    ensures Convert(x - y, c) == Convert(x, c) - Convert(y, c)
  {
  }

  /** Conversion keeps the order of amounts, so the ranking of top performers is
      the same in every currency. */
  lemma ConvertMonotone(x: real, y: real, c: Code)
    ensures x <= y <==> Convert(x, c) <= Convert(y, c)
  {
  }

  /** The converted profit is the converted net worth less the converted amount
      invested, whichever currency is selected. */
  lemma ConvertedProfit(hs: seq<Holding>, c: Code)
    ensures Convert(Aggregate.TotalPL(hs), c)
         == Convert(Aggregate.CurrentValue(hs), c) - Convert(Aggregate.TotalInvested(hs), c)
  {
    ConvertLinear(Aggregate.CurrentValue(hs), Aggregate.TotalInvested(hs), c);
  }
}

=== FILE: flow.dfy ===
/**
 * The page, the dialog and the backend together: a holding as the page receives
 * it, opened in the dialog, submitted, and stored by the update or add route.
 */
module Flow {
  import opened Wrappers
  import opened Json
  import opened Text
  import opened Records
  import Numeric
  import Save
  import HoldingForm
  import opened PortfolioRouter

  /** The columns of a holding row, as JSON keys. */
  const Columns: set<string> := {
    "id", "portfolio_id", "symbol", "quantity", "average_price", "asset_type",
    "conviction_level", "investment_thesis", "risks", "target_value", "time_horizon",
    "notes", "details", "current_price", "last_price_update"}

  /** One column of a holding as JSON. */
  function Column(h: Holding, k: string): Value {
    if k == "id" then Str(h.id)
    else if k == "portfolio_id" then TextValue(h.portfolioId)
    else if k == "symbol" then Str(h.symbol)
    else if k == "quantity" then Num(h.quantity)
    else if k == "average_price" then Num(h.averagePrice)
    else if k == "asset_type" then TextValue(h.assetType)
    else if k == "conviction_level" then TextValue(h.annotations.convictionLevel)
    else if k == "investment_thesis" then TextValue(h.annotations.investmentThesis)
    else if k == "risks" then TextValue(h.annotations.risks)
    else if k == "target_value" then NumberValue(h.annotations.targetValue)
    else if k == "time_horizon" then TextValue(h.annotations.timeHorizon)
    else if k == "notes" then TextValue(h.annotations.notes)
    else if k == "details" then Obj(h.details)
    else if k == "current_price" then NumberValue(h.currentPrice)
    else TextValue(h.lastPriceUpdate)
  }

  /** A stored holding as the page receives it from the holdings listing. */
  function AsJson(h: Holding): map<string, Value> {
    map k | k in Columns :: Column(h, k)
  }

  /** The request body the page sends when a holding is opened and saved as is. */
  function ResavedBody(h: Holding): map<string, Value> {
    Save.Sanitize(HoldingForm.Init(Some(AsJson(h))))
  }

  /** Saving an opened holding goes to the update route for that holding. */
  lemma EditRoutesToUpdate(h: Holding, portfolioId: string)
    requires h.id != "" && portfolioId != ""
    ensures Save.SaveHolding(Some(portfolioId), HoldingForm.Init(Some(AsJson(h))))
         == Save.Update(Str(h.id), ResavedBody(h))
  {
    var f := HoldingForm.Init(Some(AsJson(h)));
    assert Get(f, "id") == Str(h.id);
  }

  /** A new holding's form has no id, so saving it goes to the add route. */
  lemma NewFormRoutesToAdd(portfolioId: string)
    requires portfolioId != ""
    ensures Save.SaveHolding(Some(portfolioId), HoldingForm.Init(None))
         == Save.Add(portfolioId, Save.Sanitize(HoldingForm.EmptyForm))
  {
    assert "id" !in HoldingForm.EmptyForm;
  }

  /** An annotation survives the save when it is unset or non-empty. */
  predicate Kept(o: Option<string>) {
    o.Some? ==> o.value != ""
  }

  /** The holdings whose fields a save reproduces: stored in upper case, with a
      type, and with no empty text and no zero target. */
  predicate Resavable(h: Holding) {
    && ToUpper(h.symbol) == h.symbol
    && h.assetType.Some? && ToUpper(h.assetType.value) == h.assetType.value
    && Kept(h.annotations.convictionLevel) && Kept(h.annotations.investmentThesis)
    && Kept(h.annotations.risks) && Kept(h.annotations.timeHorizon) && Kept(h.annotations.notes)
    && (h.annotations.targetValue.Some? ==> h.annotations.targetValue.value != 0.0)
  }

  /** A body validates to the request its fields spell out. */
  lemma ValidatesTo(b: map<string, Value>, symbol: string, quantity: real, averagePrice: real,
                    assetType: string, a: Annotations, details: map<string, Value>)
    requires Get(b, "symbol") == Str(symbol)
    requires Get(b, "quantity") == Num(quantity) && Get(b, "average_price") == Num(averagePrice)
    requires Get(b, "asset_type") == Str(assetType)
    requires Get(b, "conviction_level") == TextValue(a.convictionLevel)
    requires Get(b, "investment_thesis") == TextValue(a.investmentThesis)
    requires Get(b, "risks") == TextValue(a.risks)
    requires Get(b, "target_value") == NumberValue(a.targetValue)
    requires Get(b, "time_horizon") == TextValue(a.timeHorizon)
    requires Get(b, "notes") == TextValue(a.notes)
    requires Get(b, "details") == Obj(details)
    ensures PortfolioRouter.Validate(b)
         == Ok(PortfolioRouter.HoldingRequest(symbol, quantity, averagePrice, assetType, a, details))
  {
    assert PortfolioRouter.WellFormed(b);
  }

  /** The form opened on a holding is the holding's JSON: its details are an object. */
  lemma OpenedForm(h: Holding)
    ensures HoldingForm.Init(Some(AsJson(h))) == AsJson(h)
  {
    var j := AsJson(h);
    assert Get(j, "details") == Obj(h.details);
  }

  /** Each column of the resaved body is the save's rewrite of that column. */
  lemma ResavedColumn(h: Holding, k: string)
    requires k in Columns
    ensures Get(ResavedBody(h), k) == Save.Field(AsJson(h), k)
    ensures Get(AsJson(h), k) == Column(h, k)
  {
    OpenedForm(h);
    assert k in Save.Sanitize(AsJson(h));
  }

  /** A kept annotation is sent as it was stored. */
  lemma KeptText(o: Option<string>)
    requires Kept(o)
    ensures Save.OrNull(TextValue(o)) == TextValue(o)
  {
  }

  /** The resaved body holds the holding's symbol and type. */
  lemma ResavedTexts(h: Holding)
    requires Resavable(h)
    ensures var b := ResavedBody(h);
      Get(b, "symbol") == Str(h.symbol) && Get(b, "asset_type") == Str(h.assetType.value)
  {
    ResavedColumn(h, "symbol");
    Save.UnrewrittenKept(AsJson(h), "symbol");
    ResavedColumn(h, "asset_type");
    Save.UnrewrittenKept(AsJson(h), "asset_type");
  }

  /** The resaved body holds the holding's details. */
  lemma ResavedDetails(h: Holding)
    ensures Get(ResavedBody(h), "details") == Obj(h.details)
  {
    ResavedColumn(h, "details");
    Save.UnrewrittenKept(AsJson(h), "details");
  }

  /** The resaved body holds the holding's numbers. */
  lemma ResavedNumbers(h: Holding)
    requires Resavable(h)
    ensures var b := ResavedBody(h);
      && Get(b, "quantity") == Num(h.quantity) && Get(b, "average_price") == Num(h.averagePrice)
      && Get(b, "target_value") == NumberValue(h.annotations.targetValue)
  {
    ResavedColumn(h, "quantity");
    ResavedColumn(h, "average_price");
    ResavedColumn(h, "target_value");
  }

  /** The resaved body holds the holding's annotations. */
  lemma ResavedAnnotations(h: Holding)
    requires Resavable(h)
    ensures var b := ResavedBody(h);
      && Get(b, "conviction_level") == TextValue(h.annotations.convictionLevel)
      && Get(b, "investment_thesis") == TextValue(h.annotations.investmentThesis)
      && Get(b, "risks") == TextValue(h.annotations.risks)
      && Get(b, "time_horizon") == TextValue(h.annotations.timeHorizon)
      && Get(b, "notes") == TextValue(h.annotations.notes)
  {
    var a := h.annotations;
    ResavedColumn(h, "conviction_level");
    KeptText(a.convictionLevel);
    ResavedColumn(h, "investment_thesis");
    KeptText(a.investmentThesis);
    ResavedColumn(h, "risks");
    KeptText(a.risks);
    ResavedColumn(h, "time_horizon");
    KeptText(a.timeHorizon);
    ResavedColumn(h, "notes");
    KeptText(a.notes);
  }

  /** The body a resavable holding is sent back with validates to its own fields. */
  lemma ResavedBodyValidates(h: Holding)
    requires Resavable(h)
    ensures PortfolioRouter.Validate(ResavedBody(h))
         == Ok(PortfolioRouter.HoldingRequest(h.symbol, h.quantity, h.averagePrice,
                                              h.assetType.value, h.annotations, h.details))
  {
    ResavedTexts(h);
    ResavedDetails(h);
    ResavedNumbers(h);
    ResavedAnnotations(h);
    ValidatesTo(ResavedBody(h), h.symbol, h.quantity, h.averagePrice,
                h.assetType.value, h.annotations, h.details);
  }

  /** A request that repeats a stored, normalised holding rewrites the same row. */
  lemma RepeatedRequestIsNoOp(store: PortfolioRouter.Store, h: Holding, b: map<string, Value>)
    requires h.id in store && store[h.id] == h && Resavable(h)
    requires PortfolioRouter.Validate(b)
          == Ok(PortfolioRouter.HoldingRequest(h.symbol, h.quantity, h.averagePrice,
                                               h.assetType.value, h.annotations, h.details))
    ensures PortfolioRouter.UpdateHolding(store, h.id, b, None) == (store, PortfolioRouter.Done(h))
  {
    var req := PortfolioRouter.Validate(b).value;
    assert PortfolioRouter.WellFormed(b);
    var row := PortfolioRouter.UpdateRow(req);
    assert row.symbol == h.symbol && row.assetType == h.assetType.value;
    assert PortfolioRouter.Updated(h, row) == h;
    assert store[h.id := h] == store;
  }

  /** Opening a stored holding and saving it unchanged rewrites the same row: the
      table is as it was, and the route answers with the holding itself. */
  lemma UnchangedSaveIsNoOp(store: PortfolioRouter.Store, h: Holding)
    requires h.id in store && store[h.id] == h && Resavable(h)
    ensures PortfolioRouter.UpdateHolding(store, h.id, ResavedBody(h), None)
         == (store, PortfolioRouter.Done(h))
  {
    ResavedBodyValidates(h);
    RepeatedRequestIsNoOp(store, h, ResavedBody(h));
  }

  /** A target value of 0 does not survive: the same save stores no target. */
  lemma ZeroTargetLostOnSave(h: Holding)
    requires h.annotations.targetValue == Some(0.0)
    ensures ResavedBody(h)["target_value"] == Null
  {
    var f := HoldingForm.Init(Some(AsJson(h)));
    assert Get(f, "target_value") == Num(0.0);
    Save.SanitizeTarget(f);
  }

  /** Blank numbers are sent as 0. */
  lemma BlankNumbersAreZero(f: Save.Record)
    requires Get(f, "quantity") == Str("") && Get(f, "average_price") == Str("")
    ensures Get(Save.Sanitize(f), "quantity") == Num(0.0)
    ensures Get(Save.Sanitize(f), "average_price") == Num(0.0)
  {
    BlankNumberIsZero(f, "quantity");
    BlankNumberIsZero(f, "average_price");
  }

  lemma BlankNumberIsZero(f: Save.Record, k: string)
    requires k == "quantity" || k == "average_price"
    requires Get(f, k) == Str("")
    ensures Get(Save.Sanitize(f), k) == Num(0.0)
  {
    Save.SanitizeNumbers(f, k);
    Numeric.BlankIsZero("");
  }

  /** No annotations in the form: every annotation key reads as null. */
  predicate Unannotated(f: Save.Record) {
    && Get(f, "conviction_level") == Null && Get(f, "investment_thesis") == Null
    && Get(f, "risks") == Null && Get(f, "target_value") == Null
    && Get(f, "time_horizon") == Null && Get(f, "notes") == Null
  }

  /** Unset annotations are sent as null. */
  lemma UnsetAnnotationsAreNull(f: Save.Record)
    requires Unannotated(f)
    ensures Unannotated(Save.Sanitize(f))
  {
    Save.SanitizeTarget(f);
    Save.SanitizeOptionals(f, "conviction_level");
    Save.SanitizeOptionals(f, "investment_thesis");
    Save.SanitizeOptionals(f, "risks");
    Save.SanitizeOptionals(f, "time_horizon");
    Save.SanitizeOptionals(f, "notes");
  }

  /** The symbol, type and details of a form reach its body unchanged. */
  lemma KeptColumns(f: Save.Record, symbol: string, assetType: string, details: map<string, Value>)
    requires Get(f, "symbol") == Str(symbol) && Get(f, "asset_type") == Str(assetType)
    requires Get(f, "details") == Obj(details)
    ensures var b := Save.Sanitize(f);
      && Get(b, "symbol") == Str(symbol) && Get(b, "asset_type") == Str(assetType)
      && Get(b, "details") == Obj(details)
  {
    Save.UnrewrittenKept(f, "symbol");
    Save.SanitizeKeepsOthers(f, "symbol");
    Save.UnrewrittenKept(f, "asset_type");
    Save.SanitizeKeepsOthers(f, "asset_type");
    Save.UnrewrittenKept(f, "details");
    Save.SanitizeKeepsOthers(f, "details");
  }

  /** A form with blank numbers and no annotations is stored with no units, price 0
      and no annotations, whatever its symbol, type and details. */
  lemma BlankFormIsBlankHolding(f: Save.Record, symbol: string, assetType: string,
                                details: map<string, Value>)
    requires Get(f, "symbol") == Str(symbol) && Get(f, "asset_type") == Str(assetType)
    requires Get(f, "quantity") == Str("") && Get(f, "average_price") == Str("")
    requires Get(f, "details") == Obj(details) && Unannotated(f)
    ensures PortfolioRouter.Validate(Save.Sanitize(f))
         == Ok(PortfolioRouter.HoldingRequest(symbol, 0.0, 0.0, assetType, NoAnnotations, details))
  {
    KeptColumns(f, symbol, assetType, details);
    BlankNumbersAreZero(f);
    UnsetAnnotationsAreNull(f);
    ValidatesTo(Save.Sanitize(f), symbol, 0.0, 0.0, assetType, NoAnnotations, details);
  }

  /** Submitting the empty form stores a blank stock: no symbol, no units, price 0. */
  lemma EmptyFormAddsBlankStock()
    ensures PortfolioRouter.Validate(Save.Sanitize(HoldingForm.EmptyForm))
         == Ok(PortfolioRouter.HoldingRequest("", 0.0, 0.0, "STOCK", NoAnnotations, map[]))
  {
    var f := HoldingForm.EmptyForm;
    BlankFormIsBlankHolding(f, "", "STOCK", map[]);
  }
}

=== FILE: holding.dfy ===
/**
 * A holding as the `holdings` table stores it and as the dashboard receives it
 * from `getPortfolioHoldings`.
 */
module Records {
  import opened Wrappers
  import opened Json

  /** The descriptive, optional columns shared by requests and stored rows. */
  datatype Annotations = Annotations(
    convictionLevel: Option<string>,
    investmentThesis: Option<string>,
    risks: Option<string>,
    targetValue: Option<real>,
    timeHorizon: Option<string>,
    notes: Option<string>)

  /** All six columns unset. */
  const NoAnnotations := Annotations(None, None, None, None, None, None)

  /** One stored position. `portfolioId` and `assetType` are nullable columns;
      `currentPrice` and `lastPriceUpdate` are written only by the price refresh.
      A null `quantity` or `average_price` would multiply as 0 on the page, so the
      numeric columns are plain numbers here. */
  datatype Holding = Holding(
    id: string,
    portfolioId: Option<string>,
    symbol: string,
    quantity: real,
    averagePrice: real,
    assetType: Option<string>,
    annotations: Annotations,
    details: map<string, Value>,
    currentPrice: Option<real>,
    lastPriceUpdate: Option<string>)
}

=== FILE: holding_form.dfy ===
/**
 * The add/edit holding dialog: its form state, how the state is reset or
 * initialised when the dialog opens, the two ways a keystroke changes it, and the
 * field tables the dialog renders from.
 */
module HoldingForm {
  import opened Wrappers
  import opened Json
  import Save

  /** The form state: a JavaScript object with string keys. */
  type Form = map<string, Value>

  /** The state of a form opened for a new holding. */
  const EmptyForm: Form := map[
    "symbol" := Str(""), "quantity" := Str(""), "average_price" := Str(""),
    "asset_type" := Str("STOCK"), "details" := Obj(map[])]

  /** The state after the dialog opens: a copy of the holding being edited, with
      `details` defaulting to an empty object, or the empty form. */
  function Init(initial: Option<Form>): (f: Form)
    ensures initial == None ==> f == EmptyForm
    ensures initial.Some? ==> f.Keys == initial.value.Keys + {"details"}
    ensures initial.Some? ==> forall k :: k in initial.value && k != "details" ==> f[k] == initial.value[k]
    ensures initial.Some? && Truthy(Get(initial.value, "details")) ==> f["details"] == initial.value["details"]
    ensures initial.Some? && !Truthy(Get(initial.value, "details")) ==> f["details"] == Obj(map[])
  {
    match initial
    case None => EmptyForm
    case Some(d) =>
      var details := Get(d, "details");
      d["details" := if Truthy(details) then details else Obj(map[])]
  }

  /** `handleChange`: key `k` takes the value `v`; every other key, `details`
      included, keeps its value. */
  function Change(f: Form, k: string, v: Value): (r: Form)
    ensures r.Keys == f.Keys + {k} && r[k] == v
    ensures forall j :: j in f && j != k ==> r[j] == f[j]
  {
    f[k := v]
  }

  /** The detail entries of a form. Spreading anything but an object adds no entry. */
  function DetailsOf(f: Form): map<string, Value> {
    match Get(f, "details")
    case Obj(m) => m
    case _ => map[]
  }

  /** `handleDetailChange`: detail `k` takes the value `v`; every other detail and
      every top-level key but `details` keeps its value. */
  function ChangeDetail(f: Form, k: string, v: Value): (r: Form)
    ensures r.Keys == f.Keys + {"details"}
    ensures forall j :: j in f && j != "details" ==> r[j] == f[j]
    ensures DetailsOf(r).Keys == DetailsOf(f).Keys + {k} && DetailsOf(r)[k] == v
    ensures forall j :: j in DetailsOf(f) && j != k ==> DetailsOf(r)[j] == DetailsOf(f)[j]
  {
    f["details" := Obj(DetailsOf(f)[k := v])]
  }

  /** Choosing another asset type keeps every detail entered so far, including the
      entries of fields the new type does not show. */
  lemma AssetTypeChangeKeepsDetails(f: Form, t: string)
    ensures DetailsOf(Change(f, "asset_type", Str(t))) == DetailsOf(f)
    ensures Change(f, "asset_type", Str(t))["asset_type"] == Str(t)
  {
  }

  /** Editing a holding and changing nothing leaves its fields as loaded. */
  lemma InitKeepsHolding(d: Form, k: string)
    requires k in d && k != "details"
    ensures Init(Some(d))[k] == d[k]
  {
  }

  /** Detail edits commute when they touch different details. */
  lemma DetailEditsCommute(f: Form, k1: string, v1: Value, k2: string, v2: Value)
    requires k1 != k2
    ensures ChangeDetail(ChangeDetail(f, k1, v1), k2, v2)
         == ChangeDetail(ChangeDetail(f, k2, v2), k1, v1)
  {
    var a := ChangeDetail(ChangeDetail(f, k1, v1), k2, v2);
    var b := ChangeDetail(ChangeDetail(f, k2, v2), k1, v1);
    assert DetailsOf(f)[k1 := v1][k2 := v2] == DetailsOf(f)[k2 := v2][k1 := v1];
  }

  datatype Kind = TextBox | Number | Date | TextArea | Select(options: seq<string>)

  datatype Field = Field(name: string, caption: string, kind: Kind)

  /** The annotation fields every holding has, in the order the dialog shows them. */
  const CommonFields: seq<Field> := [
    Field("investment_thesis", "Investment Thesis", TextArea),
    Field("conviction_level", "Conviction Level", Select(["Low", "Medium", "High", "Very High"])),
    Field("risks", "Risks / Red Flags", TextArea),
    Field("target_value", "Target Value / Exit Goal", Number),
    Field("time_horizon", "Time Horizon", Select(["Short Term", "Medium Term", "Long Term"])),
    Field("notes", "Notes", TextArea)]

  /** The asset types that have fields of their own, in declaration order. */
  const SpecificTypes: seq<string> := ["STOCK", "INDEX_FUND", "GOLD", "CHIT_FUND"]

  /** The detail fields of each asset type that has any. */
  function SpecificFields(t: string): seq<Field>
    requires t in SpecificTypes
  {
    match t
    case "STOCK" => [
      Field("sector", "Sector / Industry", TextBox),
      Field("dividend_yield", "Dividend Yield", Number)]
    case "INDEX_FUND" => [
      Field("fund_type", "Fund Type", Select(["Index", "Debt", "Hybrid", "Thematic"])),
      Field("expense_ratio", "Expense Ratio (%)", Number),
      Field("amc", "AMC Name", TextBox),
      Field("sip_enabled", "SIP Enabled", Select(["Yes", "No"]))]
    case "GOLD" => [
      Field("gold_type", "Type", Select(["Physical", "ETF", "Digital"])),
      Field("purity", "Purity (Carats)", TextBox),
      Field("storage", "Storage Location", TextBox),
      Field("making_charges", "Making Charges", Number)]
    case "CHIT_FUND" => [
      Field("group_name", "Chit Group Name", TextBox),
      Field("chit_value", "Total Chit Value", Number),
      Field("monthly_contribution", "Monthly Contribution", Number),
      Field("duration_months", "Duration (Months)", Number),
      Field("start_date", "Start Date", Date),
      Field("end_date", "End Date", Date),
      Field("organizer", "Organizer", TextBox),
      Field("payout_received", "Payout Received?", Select(["Yes", "No"]))]
  }

  /** The detail fields shown for the form's asset type: the table entry, or none
      when the type has no entry. */
  function AssetFields(assetType: Value): (r: seq<Field>)
    ensures assetType.Str? && assetType.s in SpecificTypes ==> r == SpecificFields(assetType.s)
    ensures !(assetType.Str? && assetType.s in SpecificTypes) ==> r == []
  {
    if assetType.Str? && assetType.s in SpecificTypes then SpecificFields(assetType.s) else []
  }

  /** The choices of the asset-type menu: the table's types, then real estate and
      fixed deposits. */
  const AssetTypeOptions: seq<string> := SpecificTypes + ["REAL_ESTATE", "FD"]

  function Names(fs: seq<Field>): seq<string> {
    seq(|fs|, i requires 0 <= i < |fs| => fs[i].name)
  }

  /** The menu offers six distinct types, and only the two added ones have no
      fields of their own. */
  lemma AssetTypeChoices()
    ensures |AssetTypeOptions| == 6
    ensures forall i, j :: 0 <= i < j < |AssetTypeOptions| ==> AssetTypeOptions[i] != AssetTypeOptions[j]
    ensures forall t :: t in AssetTypeOptions ==> (AssetFields(Str(t)) == [] <==> t == "REAL_ESTATE" || t == "FD")
  {
    forall t | t in AssetTypeOptions
      ensures AssetFields(Str(t)) == [] <==> t == "REAL_ESTATE" || t == "FD"
    {
      if t in SpecificTypes {
        assert |SpecificFields(t)| > 0;
      }
    }
  }

  /** Within each asset type the detail fields have distinct names, so each input
      edits its own detail. */
  lemma SpecificNamesDistinct(t: string)
    requires t in SpecificTypes
    ensures forall i, j :: 0 <= i < j < |SpecificFields(t)| ==> SpecificFields(t)[i].name != SpecificFields(t)[j].name
  {
  }

  /** The common fields are exactly the annotations the save payload normalises,
      besides quantity and average price. */
  lemma CommonFieldsAreSanitised()
    ensures forall n :: n in Names(CommonFields) <==> n in Save.SanitisedKeys && n != "quantity" && n != "average_price"
  {
    var ns := Names(CommonFields);
    assert ns == ["investment_thesis", "conviction_level", "risks", "target_value", "time_horizon", "notes"];
  }
}

=== FILE: json.dfy ===
/**
 * The dynamically typed values that flow between the page, the holding form and
 * the backend: JSON values, plus the `NaN` that JavaScript's `Number(...)` can
 * produce before anything is serialised.
 */
module Json {
  import opened Wrappers

  datatype Value =
    | Null
    | Bool(b: bool)
    | Num(n: real)
    | NaN
    | Str(s: string)
    | Obj(fields: map<string, Value>)

  /** JavaScript truthiness: null, false, 0, NaN and "" are falsy; every object is
      truthy. */
  predicate Truthy(v: Value) {
    match v
    case Null => false
    case Bool(b) => b
    case Num(n) => n != 0.0
    case NaN => false
    case Str(s) => s != ""
    case Obj(_) => true
  }

  /** Python truthiness, which differs from JavaScript's on two values: NaN is
      true and an empty dict is false. */
  predicate PyTruthy(v: Value) {
    match v
    case Null => false
    case Bool(b) => b
    case Num(n) => n != 0.0
    case NaN => true
    case Str(s) => s != ""
    case Obj(m) => m != map[]
  }

  /** Property read on a record. A missing key reads as `Null`: every read the
      source makes treats `undefined` and `null` alike. */
  function Get(record: map<string, Value>, key: string): (v: Value)
    ensures key in record ==> v == record[key]
    ensures key !in record ==> v == Null
  {
    if key in record then record[key] else Null
  }
}

=== FILE: number.dfy ===
/**
 * JavaScript's `Number(value)` on the values a form can hold. Strings are read as
 * decimal literals after trimming; the blank string is 0. `None` stands for `NaN`.
 */
module Numeric {
  import opened Wrappers
  import opened Json
  import opened Text

  predicate IsDigit(c: char) {
    '0' <= c <= '9'
  }

  predicate AllDigits(s: string) {
    forall i :: 0 <= i < |s| ==> IsDigit(s[i])
  }

  /** Characters that can appear in a string `Number` reads as a decimal. */
  predicate IsNumeral(c: char) {
    IsDigit(c) || c == '.' || c == '+' || c == '-' || IsSpace(c)
  }

  function Pow10(k: nat): (r: nat)
    ensures r >= 1
  {
    if k == 0 then 1 else 10 * Pow10(k - 1)
  }

  /** The value of a string of decimal digits, read left to right. */
  function DigitsValue(ds: string): nat
    requires AllDigits(ds)
  {
    if ds == [] then 0
    else DigitsValue(ds[..|ds| - 1]) * 10 + (ds[|ds| - 1] as int - '0' as int)
  }

  /** The number of leading decimal digits of `s`. */
  function LeadingDigits(s: string): (n: nat)
    ensures n <= |s| && AllDigits(s[..n])
    ensures n < |s| ==> !IsDigit(s[n])
  {
    if s != [] && IsDigit(s[0]) then 1 + LeadingDigits(s[1..]) else 0
  }

  predicate HasDigit(s: string) {
    exists k :: 0 <= k < |s| && IsDigit(s[k])
  }

  /** No two positions of `s` both hold a decimal point. */
  predicate AtMostOnePoint(s: string) {
    forall i, j :: 0 <= i < j < |s| && s[i] == '.' ==> s[j] != '.'
  }

  /** Digits with at most one point and at least one digit: the strings `Number`
      reads as an unsigned decimal. */
  predicate UnsignedNumeral(s: string) {
    && (forall i :: 0 <= i < |s| ==> IsDigit(s[i]) || s[i] == '.')
    && HasDigit(s)
    && AtMostOnePoint(s)
  }

  /** An unsigned decimal `ddd`, `ddd.ddd`, `ddd.` or `.ddd` with at least one digit. */
  function ParseUnsigned(s: string): (r: Option<real>)
    ensures r.Some? ==> r.value >= 0.0
    ensures r.Some? ==> s != [] && forall i :: 0 <= i < |s| ==> IsDigit(s[i]) || s[i] == '.'
    ensures r.Some? <==> UnsignedNumeral(s)
  {
    var n := LeadingDigits(s);
    if n == |s| then
      if n == 0 then None else Some(DigitsValue(s) as real)
    else if s[n] != '.' then None
    else
      var frac := s[n + 1..];
      if !AllDigits(frac) || (n == 0 && frac == []) then None
      else Some(DigitsValue(s[..n]) as real + DigitsValue(frac) as real / Pow10(|frac|) as real)
  }

  /** `Number(s)` for a string: trimmed, blank is 0, then an optionally signed decimal.
      A string with any character outside digits, '.', signs and white space is NaN. */
  function ParseNumeric(s: string): Option<real> {
    ParseTrimmed(Trim(s))
  }

  /** A negated reading; NaN stays NaN. */
  function Negate(o: Option<real>): Option<real> {
    match o
    case Some(x) => Some(-x)
    case None => None
  }

  /** The sign and number of a trimmed string. */
  function ParseTrimmed(t: string): Option<real> {
    if t == [] then Some(0.0)
    else if t[0] == '-' then Negate(ParseUnsigned(t[1..]))
    else if t[0] == '+' then ParseUnsigned(t[1..])
    else ParseUnsigned(t)
  }

  /** A blank string is 0. */
  lemma BlankIsZero(s: string)
    ensures AllSpace(s) ==> ParseNumeric(s) == Some(0.0)
  {
    TrimEmptyIffAllSpace(s);
  }

  /** JavaScript's `Number(value)`; `None` is `NaN`. */
  function ToNumber(v: Value): Option<real> {
    match v
    case Null => Some(0.0)
    case Bool(b) => Some(if b then 1.0 else 0.0)
    case Num(n) => Some(n)
    case NaN => None
    case Str(s) => ParseNumeric(s)
    case Obj(_) => None
  }

  /** Any string holding a character other than digits, '.', signs and white space
      is `NaN`. */
  lemma NonNumeralIsNaN(s: string, k: nat)
    requires k < |s| && !IsNumeral(s[k])
    ensures ParseNumeric(s) == None
  {
    var i, j := TrimBounds(s);
    assert i <= k < j;
    assert Trim(s)[k - i] == s[k];
    TrimmedNonNumeral(Trim(s), k - i);
  }

  lemma TrimmedNonNumeral(t: string, m: nat)
    requires m < |t| && !IsNumeral(t[m])
    ensures ParseTrimmed(t) == None
  {
    if t[0] == '-' || t[0] == '+' {
      assert t[1..][m - 1] == t[m];
    }
  }

  /** A string with two decimal points is `NaN`, whatever surrounds them. */
  lemma TwoPointsIsNaN(s: string, p: nat, q: nat)
    requires p < q < |s| && s[p] == '.' && s[q] == '.'
    ensures ParseNumeric(s) == None
  {
    var a, b := PointsSurviveTrim(s, p, q);
    TrimmedTwoPoints(Trim(s), a, b);
  }

  /** Trimming keeps both points, in order. */
  lemma PointsSurviveTrim(s: string, p: nat, q: nat) returns (a: nat, b: nat)
    requires p < q < |s| && s[p] == '.' && s[q] == '.'
    ensures a < b < |Trim(s)| && Trim(s)[a] == '.' && Trim(s)[b] == '.'
  {
    var i, j := TrimAround(s, p, q);
    SliceAt(s, i, j, p);
    SliceAt(s, i, j, q);
    a, b := p - i, q - i;
  }

  lemma SliceAt(s: string, i: nat, j: nat, k: nat)
    requires i <= k < j <= |s|
    ensures s[i..j][k - i] == s[k]
  {
  }

  lemma TrimmedTwoPoints(t: string, a: nat, b: nat)
    requires a < b < |t| && t[a] == '.' && t[b] == '.'
    ensures ParseTrimmed(t) == None
  {
    if t[0] == '-' || t[0] == '+' {
      assert t[1..][a - 1] == t[a] && t[1..][b - 1] == t[b];
      assert !AtMostOnePoint(t[1..]);
    } else {
      assert !AtMostOnePoint(t);
    }
  }

  /** A string that is not blank and holds no digit is `NaN`: a lone sign or point
      reads as nothing. */
  lemma NoDigitIsNaN(s: string)
    requires !AllSpace(s)
    requires forall k :: 0 <= k < |s| ==> !IsDigit(s[k])
    ensures ParseNumeric(s) == None
  {
    NoDigitSurvivesTrim(s);
    TrimmedNoDigit(Trim(s));
  }

  lemma NoDigitSurvivesTrim(s: string)
    requires !AllSpace(s)
    requires forall k :: 0 <= k < |s| ==> !IsDigit(s[k])
    ensures Trim(s) != [] && forall k :: 0 <= k < |Trim(s)| ==> !IsDigit(Trim(s)[k])
  {
    TrimEmptyIffAllSpace(s);
    var i, j := TrimIsSlice(s);
    assert forall k :: 0 <= k < |Trim(s)| ==> Trim(s)[k] == s[i + k];
  }

  lemma TrimmedNoDigit(t: string)
    requires t != [] && forall k :: 0 <= k < |t| ==> !IsDigit(t[k])
    ensures ParseTrimmed(t) == None
  {
    if t[0] == '-' || t[0] == '+' {
      assert forall k :: 0 <= k < |t[1..]| ==> t[1..][k] == t[k + 1];
      assert !HasDigit(t[1..]);
    } else {
      assert !HasDigit(t);
    }
  }

  /** Surrounding white space never changes the number a string reads as. */
  lemma TrimmedAlike(s: string)
    ensures ParseNumeric(Trim(s)) == ParseNumeric(s)
  {
    var t := Trim(s);
    if t != [] {
      TrimUnpadded(t);
    }
  }

  /** A non-empty run of digits reads as its decimal value. */
  lemma DigitsParse(ds: string)
    requires ds != [] && AllDigits(ds)
    ensures ParseNumeric(ds) == Some(DigitsValue(ds) as real)
  {
    TrimUnpadded(ds);
    UnsignedDigits(ds);
  }

  /** A minus sign in front of digits negates their value. */
  lemma NegativeDigitsParse(ds: string)
    requires ds != [] && AllDigits(ds)
    ensures ParseNumeric("-" + ds) == Some(-(DigitsValue(ds) as real))
  {
    MinusDigits(ds);
    TrimUnpadded("-" + ds);
    UnsignedDigits(ds);
    NegatedUnsigned("-" + ds, ds);
  }

  lemma MinusDigits(ds: string)
    requires ds != [] && AllDigits(ds)
    ensures ("-" + ds)[0] == '-' && ("-" + ds)[1..] == ds
    ensures !IsSpace(("-" + ds)[0]) && !IsSpace(("-" + ds)[|ds|])
  {
    var s := "-" + ds;
    assert s[1..] == ds;
    assert s[|ds|] == ds[|ds| - 1];
    assert IsDigit(ds[|ds| - 1]);
  }

  lemma NegatedUnsigned(t: string, ds: string)
    requires t != [] && t[0] == '-' && t[1..] == ds && AllDigits(ds)
    requires ParseUnsigned(ds) == Some(DigitsValue(ds) as real)
    ensures ParseTrimmed(t) == Some(-(DigitsValue(ds) as real))
  {
  }

  lemma TrimUnpadded(s: string)
    requires s != [] && !IsSpace(s[0]) && !IsSpace(s[|s| - 1])
    ensures Trim(s) == s
  {
    assert TrimStart(s) == s;
  }

  lemma UnsignedDigits(ds: string)
    requires ds != [] && AllDigits(ds)
    ensures ParseUnsigned(ds) == Some(DigitsValue(ds) as real)
  {
    LeadingDigitsOfDigits(ds);
  }

  lemma {:induction false} LeadingDigitsOfDigits(ds: string)
    requires AllDigits(ds)
    ensures LeadingDigits(ds) == |ds|
  {
    if ds != [] {
      LeadingDigitsOfDigits(ds[1..]);
    }
  }

  /** Digits read left to right: appending `b` shifts `a` by |b| places. */
  lemma {:induction false} DigitsAppend(a: string, b: string)
    requires AllDigits(a) && AllDigits(b)
    ensures AllDigits(a + b)
    ensures DigitsValue(a + b) == DigitsValue(a) * Pow10(|b|) + DigitsValue(b)
  {
    var ab := a + b;
    assert AllDigits(ab) by {
      forall i | 0 <= i < |ab|
        ensures IsDigit(ab[i])
      {
        if i < |a| { assert ab[i] == a[i]; } else { assert ab[i] == b[i - |a|]; }
      }
    }
    if b == [] {
      assert ab == a;
    } else {
      var b' := b[..|b| - 1];
      assert ab[..|ab| - 1] == a + b';
      assert ab[|ab| - 1] == b[|b| - 1];
      DigitsAppend(a, b');
      ShiftStep(DigitsValue(a), Pow10(|b'|), DigitsValue(b'), b[|b| - 1] as int - '0' as int);
    }
  }

  lemma ShiftStep(x: int, p: int, y: int, d: int)
    ensures (x * p + y) * 10 + d == x * (10 * p) + (y * 10 + d)
  {
  }

  /** Leading digits stop at the first character that is not a digit. */
  lemma {:induction false} LeadingDigitsThen(a: string, rest: string)
    requires AllDigits(a) && rest != [] && !IsDigit(rest[0])
    ensures LeadingDigits(a + rest) == |a|
  {
    if a != [] {
      assert (a + rest)[1..] == a[1..] + rest;
      LeadingDigitsThen(a[1..], rest);
    } else {
      assert a + rest == rest;
    }
  }

  /** `a.b` with at least one digit reads as the digit string `ab` shifted |b|
      places: "2.5" is 25 / 10. */
  lemma FractionParse(a: string, b: string)
    requires AllDigits(a) && AllDigits(b) && |a| + |b| > 0
    ensures AllDigits(a + b)
    ensures ParseUnsigned(a + "." + b) == Some(DigitsValue(a + b) as real / Pow10(|b|) as real)
  {
    PointDecimal(a + "." + b, a, b);
  }

  lemma PointDecimal(s: string, a: string, b: string)
    requires s == a + "." + b
    requires AllDigits(a) && AllDigits(b) && |a| + |b| > 0
    ensures AllDigits(a + b)
    ensures ParseUnsigned(s) == Some(DigitsValue(a + b) as real / Pow10(|b|) as real)
  {
    PointSplit(a, b);
    LeadingDigitsThen(a, "." + b);
    PointParse(s, |a|);
    DigitsAppend(a, b);
    var v, d, k := ParseUnsigned(s).value, DigitsValue(a + b), Pow10(|b|);
    Shifted(v, d, DigitsValue(a), k, DigitsValue(b));
  }

  /** The arithmetic of a shift: m.n shifted k places is mk + n. */
  lemma Shifted(v: real, d: int, m: int, k: int, n: int)
    requires k > 0 && v == m as real + n as real / k as real && d == m * k + n
    ensures v == d as real / k as real
  {
    CastShift(m, k, n);
    ShiftBack(v, m as real, n as real, k as real);
    assert v * k as real == d as real;
  }

  lemma PointSplit(a: string, b: string)
    ensures a + "." + b == a + ("." + b)
    ensures var s := a + "." + b; |s| == |a| + |b| + 1 && s[|a|] == '.' && s[..|a|] == a && s[|a| + 1..] == b
  {
    var s := a + "." + b;
    assert s[..|a|] == a;
    assert s[|a| + 1..] == b;
  }

  /** The reading of a string whose leading digits end at a point. */
  lemma PointParse(s: string, n: nat)
    requires n < |s| && LeadingDigits(s) == n && s[n] == '.'
    requires AllDigits(s[n + 1..]) && (n > 0 || n + 1 < |s|)
    ensures ParseUnsigned(s)
      == Some(DigitsValue(s[..n]) as real + DigitsValue(s[n + 1..]) as real / Pow10(|s[n + 1..]|) as real)
  {
  }

  lemma CastShift(m: int, k: int, n: int)
    ensures (m * k + n) as real == m as real * k as real + n as real
  {
  }

  lemma ShiftBack(v: real, x: real, y: real, p: real)
    requires p > 0.0 && v == x + y / p
    ensures v * p == x * p + y
  {
  }

  /** `Number` reads a decimal `a.b` as the digit string `ab` shifted |b| places. */
  lemma DecimalParse(a: string, b: string)
    requires AllDigits(a) && AllDigits(b) && |a| + |b| > 0
    ensures AllDigits(a + b)
    ensures ParseNumeric(a + "." + b) == Some(DigitsValue(a + b) as real / Pow10(|b|) as real)
  {
    var s := a + "." + b;
    PointDecimal(s, a, b);
    DecimalEnds(a, b);
    UnsignedAlone(s);
  }

  /** A '+' in front of an unsigned numeral changes nothing and a '-' negates it;
      a numeral that is NaN stays NaN. */
  lemma SignedNumeral(t: string, s: string)
    requires |t| > 1 && (t[0] == '+' || t[0] == '-') && t[1..] == s
    requires !IsSpace(s[0]) && !IsSpace(s[|s| - 1]) && s[0] != '-' && s[0] != '+'
    ensures t[0] == '+' ==> ParseNumeric(t) == ParseNumeric(s)
    ensures t[0] == '-' ==> ParseNumeric(t) == Negate(ParseNumeric(s))
  {
    assert t[|t| - 1] == s[|s| - 1];
    UnsignedAlone(s);
    SignParse(t, s);
  }

  /** `a.b` starts and ends with a digit or the point, never with white space or a sign. */
  lemma DecimalEnds(a: string, b: string)
    requires AllDigits(a) && AllDigits(b)
    ensures var s := a + "." + b;
      && !IsSpace(s[0]) && !IsSpace(s[|s| - 1]) && s[0] != '-' && s[0] != '+'
  {
    var s := a + "." + b;
    if a != [] { assert s[0] == a[0]; } else { assert s[0] == '.'; }
    if b != [] { assert s[|s| - 1] == b[|b| - 1]; } else { assert s[|s| - 1] == '.'; }
  }

  /** An unsigned numeral with nothing around it reads as itself. */
  lemma UnsignedAlone(s: string)
    requires s != [] && !IsSpace(s[0]) && !IsSpace(s[|s| - 1]) && s[0] != '-' && s[0] != '+'
    ensures ParseNumeric(s) == ParseUnsigned(s)
  {
    TrimUnpadded(s);
    assert ParseTrimmed(s) == ParseUnsigned(s);
  }

  /** A sign in front of an unsigned numeral keeps or negates its reading. */
  lemma SignParse(t: string, s: string)
    requires |t| > 1 && (t[0] == '+' || t[0] == '-') && t[1..] == s && !IsSpace(t[|t| - 1])
    ensures t[0] == '+' ==> ParseNumeric(t) == ParseUnsigned(s)
    ensures t[0] == '-' ==> ParseNumeric(t) == Negate(ParseUnsigned(s))
  {
    TrimUnpadded(t);
  }

  /** A decimal with a fraction reads as its value. */
  lemma UnsignedExample()
    ensures ParseUnsigned("12.5") == Some(12.5)
  {
    assert LeadingDigits("12.5") == 2 by {
      assert "12.5"[1..] == "2.5";
      assert "2.5"[1..] == ".5";
      assert LeadingDigits(".5") == 0;
    }
    assert "12.5"[..2] == "12";
    assert "12.5"[3..] == "5";
    assert DigitsValue("12") == 12 by {
      assert "12"[..1] == "1";
      assert "1"[..0] == "";
    }
    assert DigitsValue("5") == 5 by {
      assert "5"[..0] == "";
    }
    assert Pow10(1) == 10;
  }

  lemma ZeroParses()
    ensures ParseNumeric("0") == Some(0.0)
  {
    DigitsParse("0");
    assert "0"[..0] == "";
  }

  /** A lone decimal point has no digit and is `NaN`. */
  lemma LonePointExample()
    ensures ParseNumeric(".") == None
  {
    assert TrimStart(".") == ".";
    assert TrimEnd(".") == ".";
    assert LeadingDigits(".") == 0;
    assert "."[1..] == "";
  }
}

=== FILE: portfolio_router.dfy ===
/**
 * The backend's portfolio routes: validating a holding request, the row it
 * becomes on add and on update, deleting and listing holdings, and creating a
 * portfolio with one fallback attempt. The database is a map from holding id to
 * the stored holding; the database's own failures are parameters.
 */
module PortfolioRouter {
  import opened Wrappers
  import opened Json
  import opened Text
  import opened Records

  /** The validated body of an add or update request. */
  datatype HoldingRequest = HoldingRequest(
    symbol: string,
    quantity: real,
    averagePrice: real,
    assetType: string,
    annotations: Annotations,
    details: map<string, Value>)

  /** What a route answers: its JSON body, a validation failure (HTTP 422), or an
      HTTP 500 carrying the text of the exception. */
  datatype Reply<+T> = Done(body: T) | Invalid | Failed(detail: string)

  /** The request body as validation sees it: `JSON.stringify` writes NaN as null. */
  function Wire(v: Value): Value {
    if v == NaN then Null else v
  }

  predicate IsText(v: Value) { v.Str? }
  predicate IsNumber(v: Value) { v.Num? }
  predicate IsNullableText(v: Value) { Wire(v) == Null || v.Str? }
  predicate IsNullableNumber(v: Value) { Wire(v) == Null || v.Num? }

  /** Keys with defaults may be left out, but `null` is not a string or a dict. */
  predicate WellFormed(body: map<string, Value>) {
    && IsText(Get(body, "symbol"))
    && IsNumber(Get(body, "quantity"))
    && IsNumber(Get(body, "average_price"))
    && ("asset_type" in body ==> IsText(body["asset_type"]))
    && IsNullableText(Get(body, "conviction_level"))
    && IsNullableText(Get(body, "investment_thesis"))
    && IsNullableText(Get(body, "risks"))
    && IsNullableNumber(Get(body, "target_value"))
    && IsNullableText(Get(body, "time_horizon"))
    && IsNullableText(Get(body, "notes"))
    && ("details" in body ==> body["details"].Obj?)
  }

  /** An optional text as JSON: the string, or `null`. */
  function TextValue(o: Option<string>): Value {
    match o
    case Some(s) => Str(s)
    case None => Null
  }

  /** An optional number as JSON: the number, or `null`. */
  function NumberValue(o: Option<real>): Value {
    match o
    case Some(x) => Num(x)
    case None => Null
  }

  function TextOrNone(v: Value): Option<string> {
    if v.Str? then Some(v.s) else None
  }

  function NumberOrNone(v: Value): Option<real> {
    if v.Num? then Some(v.n) else None
  }

  /** The request a well-formed body validates to; keys it does not declare are
      ignored. */
  function Validate(body: map<string, Value>): (r: Result<HoldingRequest>)
    ensures r.Ok? <==> WellFormed(body)
    ensures r.Ok? ==> r.value.symbol == body["symbol"].s
    ensures r.Ok? ==> r.value.quantity == body["quantity"].n
    ensures r.Ok? ==> r.value.averagePrice == body["average_price"].n
    ensures r.Ok? ==> Str(r.value.assetType) == Get(body, "asset_type") || ("asset_type" !in body && r.value.assetType == "STOCK")
    ensures r.Ok? ==> Obj(r.value.details) == Get(body, "details") || ("details" !in body && r.value.details == map[])
    ensures r.Ok? ==> var a := r.value.annotations;
      && TextValue(a.convictionLevel) == Wire(Get(body, "conviction_level"))
      && TextValue(a.investmentThesis) == Wire(Get(body, "investment_thesis"))
      && TextValue(a.risks) == Wire(Get(body, "risks"))
      && NumberValue(a.targetValue) == Wire(Get(body, "target_value"))
      && TextValue(a.timeHorizon) == Wire(Get(body, "time_horizon"))
      && TextValue(a.notes) == Wire(Get(body, "notes"))
  {
    if !WellFormed(body) then Err("422")
    else Ok(HoldingRequest(
      Get(body, "symbol").s,
      Get(body, "quantity").n,
      Get(body, "average_price").n,
      if "asset_type" in body then body["asset_type"].s else "STOCK",
      Annotations(
        TextOrNone(Get(body, "conviction_level")),
        TextOrNone(Get(body, "investment_thesis")),
        TextOrNone(Get(body, "risks")),
        NumberOrNone(Get(body, "target_value")),
        TextOrNone(Get(body, "time_horizon")),
        TextOrNone(Get(body, "notes"))),
      if "details" in body then body["details"].fields else map[]))
  }

  /** A body with only the three required fields takes the declared defaults: a
      stock, no annotations, no details. */
  lemma RequestDefaults(symbol: string, quantity: real, averagePrice: real)
    ensures Validate(map["symbol" := Str(symbol), "quantity" := Num(quantity),
                         "average_price" := Num(averagePrice)])
         == Ok(HoldingRequest(symbol, quantity, averagePrice, "STOCK", NoAnnotations, map[]))
  {
    var body := map["symbol" := Str(symbol), "quantity" := Num(quantity),
                    "average_price" := Num(averagePrice)];
    assert "asset_type" !in body && "details" !in body;
    assert forall k :: k !in {"symbol", "quantity", "average_price"} ==> Get(body, k) == Null;
  }

  /** A NaN target value arrives as null and is stored as no target. */
  lemma NaNTargetIsNone(body: map<string, Value>)
    requires WellFormed(body) && Get(body, "target_value") == NaN
    ensures Validate(body).value.annotations.targetValue == None
  {
  }

  /** The columns written by add and update. */
  datatype Row = Row(
    portfolioId: Option<string>,
    symbol: string,
    quantity: real,
    averagePrice: real,
    assetType: string,
    annotations: Annotations,
    details: map<string, Value>)

  /** The row `add_holding` inserts. */
  function AddRow(portfolioId: string, req: HoldingRequest): (r: Row)
    ensures r.portfolioId == Some(portfolioId)
    ensures r.symbol == ToUpper(req.symbol) && r.assetType == ToUpper(req.assetType)
    ensures r.quantity == req.quantity && r.averagePrice == req.averagePrice
    ensures r.annotations == req.annotations && r.details == req.details
  {
    Row(Some(portfolioId), ToUpper(req.symbol), req.quantity, req.averagePrice,
        ToUpper(req.assetType), req.annotations, req.details)
  }

  /** The columns `update_holding` writes: those of the add row except the owning
      portfolio. */
  function UpdateRow(req: HoldingRequest): (r: Row)
    ensures r.portfolioId == None
    ensures forall p :: r == AddRow(p, req).(portfolioId := None)
  {
    Row(None, ToUpper(req.symbol), req.quantity, req.averagePrice,
        ToUpper(req.assetType), req.annotations, req.details)
  }

  /** Stored symbols and asset types are upper case, so saving them again stores
      the same text. */
  lemma RowNormalised(p: string, req: HoldingRequest)
    ensures ToUpper(AddRow(p, req).symbol) == AddRow(p, req).symbol
    ensures ToUpper(AddRow(p, req).assetType) == AddRow(p, req).assetType
  {
    ToUpperIdempotent(req.symbol);
    ToUpperIdempotent(req.assetType);
  }

  /** The `holdings` table, by id. */
  type Store = map<string, Holding>

  /** The holding a freshly inserted row becomes: no price fetched yet. */
  function Inserted(id: string, row: Row): Holding {
    Holding(id, row.portfolioId, row.symbol, row.quantity, row.averagePrice,
            Some(row.assetType), row.annotations, row.details, None, None)
  }

  /** A stored holding after an update: the written columns replaced, the id, owner
      and last fetched price kept. */
  function Updated(h: Holding, row: Row): (u: Holding)
    ensures u.id == h.id && u.portfolioId == h.portfolioId
    ensures u.currentPrice == h.currentPrice && u.lastPriceUpdate == h.lastPriceUpdate
    ensures u.symbol == row.symbol && u.assetType == Some(row.assetType)
    ensures u.quantity == row.quantity && u.averagePrice == row.averagePrice
    ensures u.annotations == row.annotations && u.details == row.details
  {
    h.(symbol := row.symbol, quantity := row.quantity, averagePrice := row.averagePrice,
       assetType := Some(row.assetType), annotations := row.annotations, details := row.details)
  }

  /** Updating twice with the same request is updating once. */
  lemma UpdateIdempotent(h: Holding, req: HoldingRequest)
    ensures Updated(Updated(h, UpdateRow(req)), UpdateRow(req)) == Updated(h, UpdateRow(req))
  {
  }

  /** The first row of a result: Python's `res.data[0]`. */
  function FirstRow<T>(rows: seq<T>): (r: Result<T>)
    ensures rows == [] <==> r.Err?
    ensures r.Ok? ==> r.value == rows[0]
  {
    if rows == [] then Err("list index out of range") else Ok(rows[0])
  }

  /** `POST /portfolio/{portfolio_id}/holdings`. The database assigns a fresh id, or
      raises `failure`. */
  function AddHolding(store: Store, portfolioId: string, body: map<string, Value>,
                      newId: string, failure: Option<string>): (r: (Store, Reply<Holding>))
    requires newId !in store
    ensures !WellFormed(body) ==> r == (store, Invalid)
    ensures WellFormed(body) && failure.Some? ==> r == (store, Failed(failure.value))
    ensures WellFormed(body) && failure == None ==>
      && r.1 == Done(Inserted(newId, AddRow(portfolioId, Validate(body).value)))
      && r.0 == store[newId := r.1.body]
  {
    match Validate(body)
    case Err(_) => (store, Invalid)
    case Ok(req) =>
      if failure.Some? then (store, Failed(failure.value))
      else
        var h := Inserted(newId, AddRow(portfolioId, req));
        (store[newId := h], Done(h))
  }

  /** `PUT /portfolio/holdings/{holding_id}`. An id that matches no row updates
      nothing, and reading the first updated row then fails. */
  function UpdateHolding(store: Store, holdingId: string, body: map<string, Value>,
                         failure: Option<string>): (r: (Store, Reply<Holding>))
    ensures !WellFormed(body) ==> r == (store, Invalid)
    ensures WellFormed(body) && failure.Some? ==> r == (store, Failed(failure.value))
    ensures WellFormed(body) && failure == None && holdingId !in store ==>
      r == (store, Failed("list index out of range"))
    ensures WellFormed(body) && failure == None && holdingId in store ==>
      && r.1 == Done(Updated(store[holdingId], UpdateRow(Validate(body).value)))
      && r.0 == store[holdingId := r.1.body]
  {
    match Validate(body)
    case Err(_) => (store, Invalid)
    case Ok(req) =>
      if failure.Some? then (store, Failed(failure.value))
      else
        var rows := if holdingId in store then [Updated(store[holdingId], UpdateRow(req))] else [];
        var next := if holdingId in store then store[holdingId := rows[0]] else store;
        match FirstRow(rows)
        case Ok(first) => (next, Done(first))
        case Err(e) => (next, Failed(e))
  }

  /** `DELETE /portfolio/holdings/{holding_id}`: the deleted rows. */
  function DeleteHolding(store: Store, holdingId: string): (r: (Store, seq<Holding>))
    ensures r.0 == store - {holdingId}
    ensures holdingId in store ==> r.1 == [store[holdingId]]
    ensures holdingId !in store ==> r.1 == []
  {
    (store - {holdingId}, if holdingId in store then [store[holdingId]] else [])
  }

  /** `GET /portfolio/{portfolio_id}/holdings`, by id; the order of the rows is the
      database's. */
  function HoldingsOf(store: Store, portfolioId: string): (r: map<string, Holding>)
    ensures forall id :: id in r <==> id in store && store[id].portfolioId == Some(portfolioId)
    ensures forall id :: id in r ==> r[id] == store[id]
  {
    map id | id in store && store[id].portfolioId == Some(portfolioId) :: store[id]
  }

  /** An update never moves a holding to another portfolio and never touches other
      holdings. */
  lemma UpdateKeepsOwner(store: Store, holdingId: string, body: map<string, Value>,
                         failure: Option<string>, portfolioId: string)
    ensures var next := UpdateHolding(store, holdingId, body, failure).0;
      && next.Keys == store.Keys
      && HoldingsOf(next, portfolioId).Keys == HoldingsOf(store, portfolioId).Keys
      && forall id :: id in store && id != holdingId ==> next[id] == store[id]
  {
    var next := UpdateHolding(store, holdingId, body, failure).0;
    if WellFormed(body) && failure == None && holdingId in store {
      assert next[holdingId].portfolioId == store[holdingId].portfolioId;
      SameOwners(store, next, portfolioId);
    }
  }

  /** Two tables with the same ids and the same owners list the same holdings. */
  lemma SameOwners(a: Store, b: Store, portfolioId: string)
    requires a.Keys == b.Keys
    requires forall id :: id in a ==> a[id].portfolioId == b[id].portfolioId
    ensures HoldingsOf(a, portfolioId).Keys == HoldingsOf(b, portfolioId).Keys
  {
  }

  /** A successful add puts the new holding in its portfolio and nowhere else. */
  lemma AddJoinsPortfolio(store: Store, portfolioId: string, body: map<string, Value>,
                          newId: string, other: string)
    requires newId !in store && WellFormed(body) && other != portfolioId
    ensures var next := AddHolding(store, portfolioId, body, newId, None).0;
      && HoldingsOf(next, portfolioId).Keys == HoldingsOf(store, portfolioId).Keys + {newId}
      && HoldingsOf(next, other) == HoldingsOf(store, other)
  {
    var h := Inserted(newId, AddRow(portfolioId, Validate(body).value));
    var next := AddHolding(store, portfolioId, body, newId, None).0;
    assert next == store[newId := h];
    assert h.portfolioId == Some(portfolioId);
    Joined(store, newId, h, portfolioId);
    Joined(store, newId, h, other);
  }

  /** Adding holding `h` under `id` lists it under its own portfolio only. */
  lemma Joined(store: Store, id: string, h: Holding, portfolioId: string)
    requires id !in store
    ensures h.portfolioId == Some(portfolioId) ==>
      HoldingsOf(store[id := h], portfolioId).Keys == HoldingsOf(store, portfolioId).Keys + {id}
    ensures h.portfolioId != Some(portfolioId) ==>
      HoldingsOf(store[id := h], portfolioId) == HoldingsOf(store, portfolioId)
  {
  }

  /** A delete removes one holding from its portfolio's listing and no other. */
  lemma DeleteLeavesOthers(store: Store, holdingId: string, portfolioId: string)
    ensures HoldingsOf(DeleteHolding(store, holdingId).0, portfolioId)
         == HoldingsOf(store, portfolioId) - {holdingId}
  {
  }

  /** A `portfolios` row as inserted, and as returned. */
  datatype NewPortfolio = NewPortfolio(name: string, userId: Option<string>)
  datatype Portfolio = Portfolio(id: string, name: string, userId: Option<string>)

  const DummyUser := "00000000-0000-0000-0000-000000000000"

  /** One insert attempt: the insert raises, or its first returned row is the answer. */
  function Attempt(inserted: Result<seq<Portfolio>>): Result<Portfolio> {
    match inserted
    case Err(e) => Err(e)
    case Ok(rows) => FirstRow(rows)
  }

  /** `POST /portfolio/create`: insert with the placeholder user, and on any failure
      insert once more without a user; only the second failure is reported. Also
      returns the inserts attempted, in order. */
  function CreatePortfolio(name: string, insert: NewPortfolio -> Result<seq<Portfolio>>)
    : (r: (seq<NewPortfolio>, Reply<Portfolio>))
    ensures 1 <= |r.0| <= 2 && r.0[0] == NewPortfolio(name, Some(DummyUser))
    ensures |r.0| == 2 <==> Attempt(insert(r.0[0])).Err?
    ensures |r.0| == 2 ==> r.0[1] == NewPortfolio(name, None)
    ensures r.1.Failed? <==> (forall a :: a in r.0 ==> Attempt(insert(a)).Err?)
    ensures r.1.Failed? ==> r.1 == Failed(Attempt(insert(r.0[1])).error)
    ensures r.1.Done? ==> Attempt(insert(r.0[|r.0| - 1])) == Ok(r.1.body)
    ensures !r.1.Invalid?
  {
    var first := NewPortfolio(name, Some(DummyUser));
    match Attempt(insert(first))
    case Ok(p) => ([first], Done(p))
    case Err(_) =>
      var second := NewPortfolio(name, None);
      match Attempt(insert(second))
      case Ok(p) => ([first, second], Done(p))
      case Err(e2) => ([first, second], Failed(e2))
  }
}

=== FILE: price_refresh.dfy ===
/**
 * `POST /portfolio/{portfolio_id}/refresh-prices`: which holdings get a market
 * price, which price is taken, and how updates and errors are counted. The price
 * source and the database write are parameters: a quote per ticker and a
 * possible failure per written row.
 */
module PriceRefresh {
  import opened Wrappers
  import opened Records
  import PortfolioRouter
  import Aggregate

  /** The asset types that have a market ticker. */
  const PricedTypes: seq<string> := ["STOCK", "CRYPTO", "GOLD", "INDEX_FUND"]

  /** A holding is priced when its asset type has a ticker and its symbol is not
      empty. A selected row always has the `asset_type` key, so a null type is
      never read as the default "STOCK". */
  predicate Eligible(h: Holding) {
    h.assetType.Some? && h.assetType.value in PricedTypes && h.symbol != ""
  }

  /** What the price source gives for a ticker: `fast_info.last_price` (None when
      the attribute is missing or null) and the price keys of the slower `info`
      dict. Either lookup may raise. */
  datatype Quote = Quote(lastPrice: Result<Option<real>>, info: Result<map<string, Option<real>>>)

  /** Python truthiness of a price: present and not zero. */
  predicate Usable(p: Option<real>) {
    p.Some? && p.value != 0.0
  }

  /** The price the refresh takes from a quote, or the error it raised. */
  function ChoosePrice(q: Quote): Result<Option<real>> {
    match q.lastPrice
    case Err(e) => Err(e)
    case Ok(last) =>
      if Usable(last) then Ok(last)
      else match q.info
        case Err(e) => Err(e)
        case Ok(info) =>
          Ok(if "currentPrice" in info then info["currentPrice"]
             else if "regularMarketPrice" in info then info["regularMarketPrice"]
             else None)
  }

  /** A failing fast lookup is the error. Otherwise the fast price wins when usable;
      failing that `currentPrice` is taken whenever the key is present, even when
      null, and `regularMarketPrice` only when it is absent; the slow lookup is
      consulted only then, and its failure is the error. */
  lemma ChoosePriceOrder(q: Quote, last: Option<real>, info: map<string, Option<real>>)
    ensures q.lastPrice.Err? ==> ChoosePrice(q) == Err(q.lastPrice.error)
    ensures q.lastPrice == Ok(last) && Usable(last) ==> ChoosePrice(q) == Ok(last)
    ensures q.lastPrice == Ok(last) && !Usable(last) && q.info.Err?
            ==> ChoosePrice(q) == Err(q.info.error)
    ensures q.lastPrice == Ok(last) && !Usable(last) && q.info == Ok(info) && "currentPrice" in info
            ==> ChoosePrice(q) == Ok(info["currentPrice"])
    ensures q.lastPrice == Ok(last) && !Usable(last) && q.info == Ok(info) && "currentPrice" !in info
            ==> ChoosePrice(q) == Ok(if "regularMarketPrice" in info then info["regularMarketPrice"] else None)
  {
  }

  /** A price written to one row. */
  datatype Write = Write(id: string, price: real)

  function FailureText(symbol: string, e: string): string {
    "Failed " + symbol + ": " + e
  }

  /** What one holding contributes: a write, an error, or nothing. */
  datatype Effect = Wrote(write: Write) | Errored(message: string) | Skipped

  function EffectOf(h: Holding, quote: string -> Quote, writeFailure: string -> Option<string>): (r: Effect)
    ensures r.Wrote? <==> Updates(h, quote, writeFailure)
    ensures r.Wrote? ==> r.write == Write(h.id, ChoosePrice(quote(h.symbol)).value.value)
    ensures r.Errored? <==> Fails(h, quote, writeFailure)
    ensures r.Errored? ==> exists e :: FailsWith(h, quote, writeFailure, e) && r.message == FailureText(h.symbol, e)
  {
    if !Eligible(h) then Skipped
    else match ChoosePrice(quote(h.symbol))
      case Err(e) => Errored(FailureText(h.symbol, e))
      case Ok(p) =>
        if !Usable(p) then Skipped
        else match writeFailure(h.id)
          case Some(e) => Errored(FailureText(h.symbol, e))
          case None => Wrote(Write(h.id, p.value))
  }

  /** The writes and errors of a whole refresh, holding by holding in list order. */
  function Refresh(hs: seq<Holding>, quote: string -> Quote, writeFailure: string -> Option<string>)
    : (r: (seq<Write>, seq<string>))
  {
    if hs == [] then ([], [])
    else
      var (ws, es) := Refresh(hs[..|hs| - 1], quote, writeFailure);
      match EffectOf(hs[|hs| - 1], quote, writeFailure)
      case Wrote(w) => (ws + [w], es)
      case Errored(m) => (ws, es + [m])
      case Skipped => (ws, es)
  }

  /** The number of holdings the refresh tries to price. */
  function EligibleCount(hs: seq<Holding>): nat {
    if hs == [] then 0
    else EligibleCount(hs[..|hs| - 1]) + if Eligible(hs[|hs| - 1]) then 1 else 0
  }

  /** The route updates this holding's row: it is priced, its lookup gives a
      truthy price, and the write goes through. */
  predicate Updates(h: Holding, quote: string -> Quote, writeFailure: string -> Option<string>) {
    && Eligible(h)
    && ChoosePrice(quote(h.symbol)).Ok? && Usable(ChoosePrice(quote(h.symbol)).value)
    && writeFailure(h.id) == None
  }

  /** The route records the error `e` for this holding: it is priced, and either its
      lookup raised `e`, or the lookup gave a truthy price and the write raised `e`. */
  predicate FailsWith(h: Holding, quote: string -> Quote, writeFailure: string -> Option<string>, e: string) {
    && Eligible(h)
    && (|| ChoosePrice(quote(h.symbol)) == Err(e)
        || (&& ChoosePrice(quote(h.symbol)).Ok? && Usable(ChoosePrice(quote(h.symbol)).value)
            && writeFailure(h.id) == Some(e)))
  }

  /** Whether the route records some error for this holding. */
  predicate Fails(h: Holding, quote: string -> Quote, writeFailure: string -> Option<string>) {
    && Eligible(h)
    && (|| ChoosePrice(quote(h.symbol)).Err?
        || (&& ChoosePrice(quote(h.symbol)).Ok? && Usable(ChoosePrice(quote(h.symbol)).value)
            && writeFailure(h.id).Some?))
  }

  /** The number of holdings whose row the route updates. */
  function UpdatedCount(hs: seq<Holding>, quote: string -> Quote, writeFailure: string -> Option<string>): nat {
    if hs == [] then 0
    else UpdatedCount(hs[..|hs| - 1], quote, writeFailure)
         + if Updates(hs[|hs| - 1], quote, writeFailure) then 1 else 0
  }

  /** The number of holdings for which the route records an error. */
  function FailedCount(hs: seq<Holding>, quote: string -> Quote, writeFailure: string -> Option<string>): nat {
    if hs == [] then 0
    else FailedCount(hs[..|hs| - 1], quote, writeFailure)
         + if Fails(hs[|hs| - 1], quote, writeFailure) then 1 else 0
  }

  /** The route as the source writes it: one loop, counting the rows it updates and
      collecting one message per failure. */
  method RefreshPrices(hs: seq<Holding>, quote: string -> Quote, writeFailure: string -> Option<string>)
    returns (updated: nat, errors: seq<string>, writes: seq<Write>)
    ensures (writes, errors) == Refresh(hs, quote, writeFailure)
    ensures updated == |writes| == UpdatedCount(hs, quote, writeFailure)
    ensures |errors| == FailedCount(hs, quote, writeFailure)
  {
    updated, errors, writes := 0, [], [];
    var i := 0;
    while i < |hs|
      invariant i <= |hs|
      invariant (writes, errors) == Refresh(hs[..i], quote, writeFailure)
      invariant updated == |writes|
    {
      var h := hs[i];
      assert hs[..i + 1][..i] == hs[..i];
      if Eligible(h) {
        match ChoosePrice(quote(h.symbol))
        case Err(e) =>
          errors := errors + [FailureText(h.symbol, e)];
        case Ok(price) =>
          if Usable(price) {
            match writeFailure(h.id)
            case Some(e) =>
              errors := errors + [FailureText(h.symbol, e)];
            case None =>
              writes := writes + [Write(h.id, price.value)];
              updated := updated + 1;
          }
      }
      i := i + 1;
    }
    assert hs[..|hs|] == hs;
    RefreshCounts(hs, quote, writeFailure);
  }

  /** The route updates exactly the rows of the holdings it can price and write, and
      records exactly one error per priced holding whose lookup or write raised. */
  lemma {:induction false} RefreshCounts(hs: seq<Holding>, quote: string -> Quote,
                                         writeFailure: string -> Option<string>)
    ensures |Refresh(hs, quote, writeFailure).0| == UpdatedCount(hs, quote, writeFailure)
    ensures |Refresh(hs, quote, writeFailure).1| == FailedCount(hs, quote, writeFailure)
  {
    if hs != [] {
      RefreshCounts(hs[..|hs| - 1], quote, writeFailure);
    }
  }

  /** Each holding priced adds at most one update or one error, so the two together
      never exceed the number of holdings priced. */
  lemma {:induction false} RefreshBound(hs: seq<Holding>, quote: string -> Quote,
                                        writeFailure: string -> Option<string>)
    ensures |Refresh(hs, quote, writeFailure).0| + |Refresh(hs, quote, writeFailure).1| <= EligibleCount(hs)
  {
    if hs != [] {
      RefreshBound(hs[..|hs| - 1], quote, writeFailure);
    }
  }

  /** Every write goes to a holding that is priced, with the truthy price its
      quote gave, and only when that holding's write goes through. */
  lemma {:induction false} WritesArePriced(hs: seq<Holding>, quote: string -> Quote,
                                           writeFailure: string -> Option<string>)
    ensures forall w :: w in Refresh(hs, quote, writeFailure).0 ==>
      && w.price != 0.0
      && exists i :: 0 <= i < |hs| && hs[i].id == w.id && Eligible(hs[i])
           && ChoosePrice(quote(hs[i].symbol)) == Ok(Some(w.price)) && writeFailure(hs[i].id) == None
  {
    if hs != [] {
      var init := hs[..|hs| - 1];
      WritesArePriced(init, quote, writeFailure);
      forall w | w in Refresh(hs, quote, writeFailure).0
        ensures && w.price != 0.0
                && exists i :: 0 <= i < |hs| && hs[i].id == w.id && Eligible(hs[i])
                     && ChoosePrice(quote(hs[i].symbol)) == Ok(Some(w.price)) && writeFailure(hs[i].id) == None
      {
        if w in Refresh(init, quote, writeFailure).0 {
          var i :| 0 <= i < |init| && init[i].id == w.id && Eligible(init[i])
            && ChoosePrice(quote(init[i].symbol)) == Ok(Some(w.price)) && writeFailure(init[i].id) == None;
          assert hs[i] == init[i];
        } else {
          assert hs[|hs| - 1].id == w.id;
        }
      }
    }
  }

  /** Every error names a priced holding's symbol and the error its lookup or its
      write raised. */
  lemma {:induction false} ErrorsNameSymbols(hs: seq<Holding>, quote: string -> Quote,
                                             writeFailure: string -> Option<string>)
    ensures forall m :: m in Refresh(hs, quote, writeFailure).1 ==>
      exists i, e :: && 0 <= i < |hs| && FailsWith(hs[i], quote, writeFailure, e)
                     && m == FailureText(hs[i].symbol, e)
  {
    if hs != [] {
      var init := hs[..|hs| - 1];
      ErrorsNameSymbols(init, quote, writeFailure);
      forall m | m in Refresh(hs, quote, writeFailure).1
        ensures exists i, e :: && 0 <= i < |hs| && FailsWith(hs[i], quote, writeFailure, e)
                               && m == FailureText(hs[i].symbol, e)
      {
        if m in Refresh(init, quote, writeFailure).1 {
          var i, e :| 0 <= i < |init| && FailsWith(init[i], quote, writeFailure, e)
            && m == FailureText(init[i].symbol, e);
          assert hs[i] == init[i];
        } else {
          var h := hs[|hs| - 1];
          match ChoosePrice(quote(h.symbol))
          case Err(e) =>
            assert FailsWith(hs[|hs| - 1], quote, writeFailure, e);
          case Ok(p) =>
            assert FailsWith(hs[|hs| - 1], quote, writeFailure, writeFailure(h.id).value);
        }
      }
    }
  }

  /** When every priced holding gets a usable price and every write succeeds, each
      priced holding is updated once and there is no error. */
  lemma {:induction false} AllSucceed(hs: seq<Holding>, quote: string -> Quote,
                                      writeFailure: string -> Option<string>)
    requires forall h :: h in hs && Eligible(h) ==>
      ChoosePrice(quote(h.symbol)).Ok? && Usable(ChoosePrice(quote(h.symbol)).value)
      && writeFailure(h.id) == None
    ensures |Refresh(hs, quote, writeFailure).0| == EligibleCount(hs)
    ensures Refresh(hs, quote, writeFailure).1 == []
  {
    if hs != [] {
      var init := hs[..|hs| - 1];
      assert forall h :: h in init ==> h in hs;
      AllSucceed(init, quote, writeFailure);
    }
  }

  /** Fixed deposits, chit funds and real estate are never priced. */
  lemma UnlistedNeverPriced(h: Holding, quote: string -> Quote, writeFailure: string -> Option<string>)
    requires h.assetType in {Some("FD"), Some("CHIT_FUND"), Some("REAL_ESTATE")}
    ensures EffectOf(h, quote, writeFailure) == Skipped
  {
  }

  /** No write goes to the row `id`. */
  predicate Unwritten(writes: seq<Write>, id: string) {
    forall j :: 0 <= j < |writes| ==> writes[j].id != id
  }

  /** `writes[j]` is the last write to the row `id`. */
  predicate LastWriteTo(writes: seq<Write>, j: int, id: string) {
    0 <= j < |writes| && writes[j].id == id && forall k :: j < k < |writes| ==> writes[k].id != id
  }

  /** The table after the writes: a row no write names is as it was; a row that is
      written keeps everything but its price and timestamp, which come from the last
      write to it and the time of the refresh. Writes to unknown ids change nothing. */
  function ApplyWrites(store: PortfolioRouter.Store, writes: seq<Write>, now: string)
    : (r: PortfolioRouter.Store)
    ensures r.Keys == store.Keys
    ensures forall id :: id in store && Unwritten(writes, id) ==> r[id] == store[id]
    ensures forall id, j :: id in store && LastWriteTo(writes, j, id) ==>
      r[id] == store[id].(currentPrice := Some(writes[j].price), lastPriceUpdate := Some(now))
    ensures forall id :: id in store ==>
      r[id].(currentPrice := store[id].currentPrice, lastPriceUpdate := store[id].lastPriceUpdate) == store[id]
  {
    if writes == [] then store
    else
      var init, w := writes[..|writes| - 1], writes[|writes| - 1];
      var s := ApplyWrites(store, init, now);
      assert writes == init + [w];
      ApplyWriteRows(store, s, init, w, now);
      ApplyWrite(s, w, now)
  }

  /** Rows after `writes` relate to the original rows as `ApplyWrites` promises. */
  ghost predicate RowsAfter(store: PortfolioRouter.Store, s: PortfolioRouter.Store, writes: seq<Write>, now: string) {
    && s.Keys == store.Keys
    && (forall id :: id in store && Unwritten(writes, id) ==> s[id] == store[id])
    && (forall id, j :: id in store && LastWriteTo(writes, j, id) ==>
          s[id] == store[id].(currentPrice := Some(writes[j].price), lastPriceUpdate := Some(now)))
    && (forall id :: id in store ==>
          s[id].(currentPrice := store[id].currentPrice, lastPriceUpdate := store[id].lastPriceUpdate) == store[id])
  }

  /** One more write keeps the relation. */
  lemma ApplyWriteRows(store: PortfolioRouter.Store, s: PortfolioRouter.Store, init: seq<Write>, w: Write, now: string)
    requires RowsAfter(store, s, init, now)
    ensures RowsAfter(store, ApplyWrite(s, w, now), init + [w], now)
  {
    var writes := init + [w];
    assert writes[|init|] == w;
    forall id | Unwritten(writes, id)
      ensures Unwritten(init, id) && w.id != id
    {
      forall j | 0 <= j < |init|
        ensures init[j].id != id
      {
        assert writes[j] == init[j];
      }
    }
    forall id, j | LastWriteTo(writes, j, id) && j < |init|
      ensures LastWriteTo(init, j, id) && w.id != id
    {
      assert writes[j] == init[j];
      forall k | j < k < |init|
        ensures init[k].id != id
      {
        assert writes[k] == init[k];
      }
    }
  }

  /** One write: the named row, when present, gets the price and the time. */
  function ApplyWrite(s: PortfolioRouter.Store, w: Write, now: string): (r: PortfolioRouter.Store)
    ensures r.Keys == s.Keys
    ensures forall id :: id in s && id != w.id ==> r[id] == s[id]
    ensures w.id in s ==> r[w.id] == s[w.id].(currentPrice := Some(w.price), lastPriceUpdate := Some(now))
  {
    if w.id in s then s[w.id := s[w.id].(currentPrice := Some(w.price), lastPriceUpdate := Some(now))]
    else s
  }

  /** A refresh changes prices only: every holding keeps its owner, symbol,
      quantity, average price and annotations, so the amount invested stays. */
  lemma WritesTouchPricesOnly(store: PortfolioRouter.Store, writes: seq<Write>, now: string, id: string)
    requires id in store
    ensures var h := ApplyWrites(store, writes, now)[id];
      && h.(currentPrice := store[id].currentPrice, lastPriceUpdate := store[id].lastPriceUpdate) == store[id]
      && Aggregate.Invested(h) == Aggregate.Invested(store[id])
  {
    var h := ApplyWrites(store, writes, now)[id];
    assert h.quantity == store[id].quantity && h.averagePrice == store[id].averagePrice;
  }
}

=== FILE: ranking.dfy ===
/**
 * The "Top Performers" card: every holding paired with its gain, sorted by gain
 * from highest to lowest with a stable sort, and cut to the first three.
 */
module Ranking {
  import opened Records
  import opened Aggregate

  /** A holding with its gain and its position in the holdings list. */
  datatype Ranked = Ranked(holding: Holding, pl: real, index: nat)

  /** `holdings.map(h => ({ ...h, pl }))`, remembering each holding's position. */
  function Annotate(hs: seq<Holding>): (r: seq<Ranked>)
    ensures |r| == |hs|
    ensures forall i :: 0 <= i < |r| ==> r[i] == Ranked(hs[i], Gain(hs[i]), i)
  {
    seq(|hs|, i requires 0 <= i < |hs| => Ranked(hs[i], Gain(hs[i]), i))
  }

  /** The order a stable sort with comparator `b.pl - a.pl` produces: higher gain
      first, and among equal gains the earlier holding first. */
  predicate Precedes(a: Ranked, b: Ranked) {
    a.pl > b.pl || (a.pl == b.pl && a.index < b.index)
  }

  predicate Ranks(s: seq<Ranked>) {
    forall i, j :: 0 <= i < j < |s| ==> Precedes(s[i], s[j])
  }

  predicate InListOrder(s: seq<Ranked>) {
    forall i, j :: 0 <= i < j < |s| ==> s[i].index < s[j].index
  }

  /** Insert `x` after every element whose gain is at least its own. */
  function Insert(s: seq<Ranked>, x: Ranked): (r: seq<Ranked>)
    ensures multiset(r) == multiset(s) + multiset{x}
  {
    if s == [] then [x]
    else if s[0].pl >= x.pl then
      assert s == [s[0]] + s[1..];
      [s[0]] + Insert(s[1..], x)
    else [x] + s
  }

  /** Inserting an element that comes later in the list than every element of a
      ranked sequence keeps it ranked. */
  lemma {:induction false} InsertRanks(s: seq<Ranked>, x: Ranked)
    requires Ranks(s)
    requires forall e :: e in s ==> e.index < x.index
    ensures Ranks(Insert(s, x))
  {
    if s != [] && s[0].pl >= x.pl {
      InsertRanks(s[1..], x);
      var r := Insert(s, x);
      assert r[1..] == Insert(s[1..], x);
      forall j | 1 <= j < |r|
        ensures Precedes(r[0], r[j])
      {
        assert r[j] in multiset(Insert(s[1..], x));
        assert r[j] == x || r[j] in s[1..];
      }
    }
  }

  /** Insertion sort from the front of the list: each element is inserted into the
      sorted prefix before it, so equal gains keep their list order. */
  function StableSort(s: seq<Ranked>): (r: seq<Ranked>)
    ensures multiset(r) == multiset(s)
  {
    if s == [] then []
    else
      assert s == s[..|s| - 1] + [s[|s| - 1]];
      Insert(StableSort(s[..|s| - 1]), s[|s| - 1])
  }

  /** A list in list order is sorted into ranking order. */
  lemma {:induction false} StableSortRanks(s: seq<Ranked>)
    requires InListOrder(s)
    ensures Ranks(StableSort(s))
  {
    if s != [] {
      var init := s[..|s| - 1];
      var last := s[|s| - 1];
      StableSortRanks(init);
      forall e | e in StableSort(init)
        ensures e.index < last.index
      {
        assert e in multiset(init);
      }
      InsertRanks(StableSort(init), last);
    }
  }

  function Min(a: nat, b: nat): nat {
    if a <= b then a else b
  }

  /** `.sort((a, b) => b.pl - a.pl).slice(0, 3)`. */
  function TopPerformers(hs: seq<Holding>): seq<Ranked> {
    var sorted := StableSort(Annotate(hs));
    assert |sorted| == |multiset(sorted)| == |Annotate(hs)|;
    sorted[..Min(3, |hs|)]
  }

  lemma SortedAnnotation(hs: seq<Holding>)
    ensures |StableSort(Annotate(hs))| == |hs|
    ensures Ranks(StableSort(Annotate(hs)))
    ensures multiset(StableSort(Annotate(hs))) == multiset(Annotate(hs))
  {
    var a := Annotate(hs);
    assert |StableSort(a)| == |multiset(StableSort(a))| == |a|;
    StableSortRanks(a);
  }

  /** At most three holdings are shown, ranked by gain from highest to lowest, with
      equal gains in list order. */
  lemma TopPerformersRank(hs: seq<Holding>)
    ensures |TopPerformers(hs)| == Min(3, |hs|)
    ensures Ranks(TopPerformers(hs))
  {
    SortedAnnotation(hs);
  }

  /** Each shown entry is a holding of the list, paired with its own gain. */
  lemma TopPerformersFromList(hs: seq<Holding>)
    ensures forall t :: t in TopPerformers(hs) ==>
      t.index < |hs| && t == Ranked(hs[t.index], Gain(hs[t.index]), t.index)
  {
    SortedAnnotation(hs);
    var a := Annotate(hs);
    var sorted := StableSort(a);
    forall t | t in TopPerformers(hs)
      ensures t.index < |hs| && t == Ranked(hs[t.index], Gain(hs[t.index]), t.index)
    {
      assert t in sorted;
      assert t in multiset(a);
    }
  }

  /** Every holding left out ranks below every holding shown. */
  lemma TopPerformersBeatTheRest(hs: seq<Holding>, i: nat)
    requires i < |hs|
    requires forall t :: t in TopPerformers(hs) ==> t.index != i
    ensures forall t :: t in TopPerformers(hs) ==> Precedes(t, Ranked(hs[i], Gain(hs[i]), i))
  {
    SortedAnnotation(hs);
    var a := Annotate(hs);
    var sorted := StableSort(a);
    var top := TopPerformers(hs);
    assert a[i] in multiset(sorted);
    var k :| 0 <= k < |sorted| && sorted[k] == a[i];
    assert k >= |top|;
    forall j | 0 <= j < |top|
      ensures Precedes(top[j], a[i])
    {
      assert top[j] == sorted[j];
    }
  }
}

=== FILE: rebalance.dfy ===
/**
 * `suggest_rebalancing`: one entry per holding that has a symbol, built from the
 * market analyser's answer for that symbol. The analyser is a parameter; it never
 * raises, because it turns every exception into an `error` key.
 */
module Rebalance {
  import opened Json

  /** One entry of the summary. */
  datatype Advice =
    | ErrorEntry(symbol: Value, reason: Value)
    | Suggestion(symbol: Value, currentAnalysis: Value, marketData: Value)

  datatype Summary = Summary(portfolioSummary: seq<Advice>)

  /** The entry for one symbol: an error when the analysis has an `error` key, even
      a falsy one; otherwise its analysis text and market data, null when missing. */
  function AdviceFor(symbol: Value, analysis: map<string, Value>): Advice {
    if "error" in analysis then ErrorEntry(symbol, analysis["error"])
    else Suggestion(symbol, Get(analysis, "analysis"), Get(analysis, "data"))
  }

  /** The holdings that get an entry: those whose symbol is truthy, in order. */
  function WithSymbol(portfolio: seq<map<string, Value>>): (r: seq<map<string, Value>>)
    ensures |r| <= |portfolio|
    ensures forall h :: h in r ==> h in portfolio && PyTruthy(Get(h, "symbol"))
    ensures forall h :: h in portfolio && PyTruthy(Get(h, "symbol")) ==> h in r
  {
    if portfolio == [] then []
    else
      var rest := WithSymbol(portfolio[..|portfolio| - 1]);
      var h := portfolio[|portfolio| - 1];
      if PyTruthy(Get(h, "symbol")) then rest + [h] else rest
  }

  /** The loop of `suggest_rebalancing`, holding by holding. */
  function Recommendations(portfolio: seq<map<string, Value>>, analyze: Value -> map<string, Value>)
    : seq<Advice>
  {
    if portfolio == [] then []
    else
      var rest := Recommendations(portfolio[..|portfolio| - 1], analyze);
      var symbol := Get(portfolio[|portfolio| - 1], "symbol");
      if !PyTruthy(symbol) then rest
      else rest + [AdviceFor(symbol, analyze(symbol))]
  }

  /** The summary is always wrapped, even when it has no entry. */
  function SuggestRebalancing(portfolio: seq<map<string, Value>>, analyze: Value -> map<string, Value>)
    : (r: Summary)
    ensures portfolio == [] ==> r == Summary([])
  {
    Summary(Recommendations(portfolio, analyze))
  }

  /** Entry `j` is the advice for the `j`-th holding with a symbol: one entry per
      such holding, in input order, and none for the others. */
  lemma {:induction false} OneEntryPerSymbol(portfolio: seq<map<string, Value>>,
                                             analyze: Value -> map<string, Value>)
    ensures |Recommendations(portfolio, analyze)| == |WithSymbol(portfolio)|
    ensures forall j :: 0 <= j < |WithSymbol(portfolio)| ==>
      var symbol := Get(WithSymbol(portfolio)[j], "symbol");
      Recommendations(portfolio, analyze)[j] == AdviceFor(symbol, analyze(symbol))
  {
    if portfolio != [] {
      OneEntryPerSymbol(portfolio[..|portfolio| - 1], analyze);
    }
  }

  /** An entry is an error entry exactly when the analysis of its symbol has an
      `error` key, and it then carries that error as its reason. */
  lemma ErrorEntryIff(symbol: Value, analysis: map<string, Value>)
    ensures AdviceFor(symbol, analysis).ErrorEntry? <==> "error" in analysis
    ensures "error" in analysis ==> AdviceFor(symbol, analysis) == ErrorEntry(symbol, analysis["error"])
    ensures AdviceFor(symbol, analysis).symbol == symbol
  {
  }

  /** Holdings without a symbol add nothing: dropping them changes no entry. */
  lemma {:induction false} SymbolLessIgnored(portfolio: seq<map<string, Value>>,
                                             analyze: Value -> map<string, Value>)
    ensures Recommendations(WithSymbol(portfolio), analyze) == Recommendations(portfolio, analyze)
  {
    if portfolio != [] {
      var init := portfolio[..|portfolio| - 1];
      SymbolLessIgnored(init, analyze);
      var h := portfolio[|portfolio| - 1];
      if PyTruthy(Get(h, "symbol")) {
        assert (WithSymbol(init) + [h])[..|WithSymbol(init)|] == WithSymbol(init);
      }
    }
  }
}

=== FILE: save.dfy ===
/**
 * Saving the holding form: the page coerces the form's fields into the request
 * body and sends it to the update endpoint when the form carries an id, and to
 * the add endpoint of the current portfolio otherwise.
 */
module Save {
  import opened Wrappers
  import opened Json
  import opened Numeric

  /** A JavaScript object with string keys: the form data, the request body. */
  type Record = map<string, Value>

  /** The optional text fields, which an empty entry turns into `null`. */
  const OptionalTexts: seq<string> :=
    ["conviction_level", "investment_thesis", "risks", "time_horizon", "notes"]

  /** Every key the page rewrites; each is present in every request body. */
  const SanitisedKeys: set<string> :=
    {"quantity", "average_price", "target_value",
     "conviction_level", "investment_thesis", "risks", "time_horizon", "notes"}

  /** `Number(v) || 0`. */
  function NumberOrZero(v: Value): real {
    match ToNumber(v)
    case Some(x) => x
    case None => 0.0
  }

  /** `v ? Number(v) : null`. */
  function TargetOrNull(v: Value): Value {
    if !Truthy(v) then Null
    else match ToNumber(v)
      case Some(x) => Num(x)
      case None => NaN
  }

  /** `v || null`. */
  function OrNull(v: Value): Value {
    if Truthy(v) then v else Null
  }

  /** What the request body holds under key `k`. */
  function Field(data: Record, k: string): Value {
    if k == "quantity" || k == "average_price" then Num(NumberOrZero(Get(data, k)))
    else if k == "target_value" then TargetOrNull(Get(data, k))
    else if k in OptionalTexts then OrNull(Get(data, k))
    else Get(data, k)
  }

  /** The request body built from the form data: the form spread, then the
      rewritten fields. */
  function Sanitize(data: Record): (p: Record)
    ensures p.Keys == data.Keys + SanitisedKeys
  {
    map k | k in data.Keys + SanitisedKeys :: Field(data, k)
  }

  /** The holding's own columns that the page does not rewrite. */
  predicate Unrewritten(k: string) {
    k == "id" || k == "symbol" || k == "asset_type" || k == "details"
  }

  /** None of them is a rewritten key, so each reaches the body as entered. */
  lemma UnrewrittenKept(data: Record, k: string)
    requires Unrewritten(k)
    ensures k !in SanitisedKeys
    ensures Field(data, k) == Get(data, k)
  {
  }

  /** Every field the page does not rewrite reaches the request body as entered. */
  lemma SanitizeKeepsOthers(data: Record, k: string)
    requires k in data && k !in SanitisedKeys
    ensures k in Sanitize(data) && Sanitize(data)[k] == data[k]
  {
  }

  /** Quantity and average price are always numbers: the form's number, or 0 when
      the entry is not numeric. */
  lemma SanitizeNumbers(data: Record, k: string)
    requires k == "quantity" || k == "average_price"
    ensures ToNumber(Get(data, k)) == None ==> Sanitize(data)[k] == Num(0.0)
    ensures forall x :: ToNumber(Get(data, k)) == Some(x) ==> Sanitize(data)[k] == Num(x)
  {
  }

  /** A non-numeric quantity such as "abc" is sent as 0. */
  lemma NonNumericQuantityIsZero(data: Record, s: string, i: nat)
    requires Get(data, "quantity") == Str(s)
    requires i < |s| && !IsNumeral(s[i])
    ensures Sanitize(data)["quantity"] == Num(0.0)
  {
    NonNumeralIsNaN(s, i);
  }

  /** A quantity with two decimal points, such as "1.2.3" or "1..5", is sent as 0. */
  lemma TwoPointQuantityIsZero(data: Record, s: string, p: nat, q: nat)
    requires Get(data, "quantity") == Str(s)
    requires p < q < |s| && s[p] == '.' && s[q] == '.'
    ensures Sanitize(data)["quantity"] == Num(0.0)
  {
    TwoPointsIsNaN(s, p, q);
  }

  /** An empty optional text field is sent as `null`; a filled one as entered. */
  lemma SanitizeOptionals(data: Record, k: string)
    requires k in OptionalTexts
    ensures !Truthy(Get(data, k)) ==> Sanitize(data)[k] == Null
    ensures Truthy(Get(data, k)) ==> Sanitize(data)[k] == data[k]
  {
  }

  /** An empty target value is sent as `null`; a filled one as its number, or NaN
      when it is not numeric. */
  lemma SanitizeTarget(data: Record)
    ensures !Truthy(Get(data, "target_value")) ==> Sanitize(data)["target_value"] == Null
    ensures Truthy(Get(data, "target_value")) && ToNumber(data["target_value"]) == None
            ==> Sanitize(data)["target_value"] == NaN
    ensures forall x ::
              Truthy(Get(data, "target_value")) && ToNumber(data["target_value"]) == Some(x)
              ==> Sanitize(data)["target_value"] == Num(x)
  {
  }

  /** Sanitising a request body again changes nothing, unless its target value is
      0 or NaN: those read as empty the second time and become `null`. */
  lemma SanitizeStable(data: Record)
    requires Sanitize(data)["target_value"] != Num(0.0)
    requires Sanitize(data)["target_value"] != NaN
    ensures Sanitize(Sanitize(data)) == Sanitize(data)
  {
    forall k | k in Sanitize(data)
      ensures Field(Sanitize(data), k) == Sanitize(data)[k]
    {
      FieldStable(data, k);
    }
  }

  lemma FieldStable(data: Record, k: string)
    requires Field(data, "target_value") != Num(0.0) && Field(data, "target_value") != NaN
    requires k in data.Keys + SanitisedKeys
    ensures Field(Sanitize(data), k) == Field(data, k)
  {
    var p := Sanitize(data);
    assert Get(p, k) == Field(data, k);
  }

  /** A target value typed as "0" (or "0.0", " -0 ") is sent as 0, and that 0 does
      not survive a second save: it is then sent as `null`. */
  lemma ZeroTargetCleared(data: Record)
    requires Truthy(Get(data, "target_value"))
    requires ToNumber(Get(data, "target_value")) == Some(0.0)
    ensures Sanitize(data)["target_value"] == Num(0.0)
    ensures Sanitize(Sanitize(data))["target_value"] == Null
  {
    SanitizeTarget(data);
    SanitizeTarget(Sanitize(data));
  }

  /** The string "0" is such a target value. */
  lemma ZeroStringTarget()
    ensures Truthy(Str("0")) && ToNumber(Str("0")) == Some(0.0)
  {
    ZeroParses();
  }

  /** The call the page makes when the form is submitted. */
  datatype SaveCall =
    | Skip
    | Add(portfolioId: string, payload: Record)
    | Update(holdingId: Value, payload: Record)

  /** Nothing is sent without a portfolio; a form with a truthy id updates that
      holding, any other form adds to the current portfolio. Both send the
      sanitised body. */
  function SaveHolding(portfolioId: Option<string>, data: Record): (c: SaveCall)
    ensures c == Skip <==> portfolioId == None || portfolioId == Some("")
    ensures c.Update? <==> c != Skip && Truthy(Get(data, "id"))
    ensures c.Update? ==> c.holdingId == data["id"]
    ensures c.Add? ==> Some(c.portfolioId) == portfolioId
    ensures c != Skip ==> c.payload == Sanitize(data)
  {
    match portfolioId
    case None => Skip
    case Some(pid) =>
      if pid == "" then Skip
      else if Truthy(Get(data, "id")) then Update(data["id"], Sanitize(data))
      else Add(pid, Sanitize(data))
  }
}

=== FILE: text.dfy ===
/**
 * The string operations the page and the backend apply to user input: ASCII
 * upper-casing (`toUpperCase` / `str.upper`), JavaScript's `String.prototype.trim`,
 * and `split(' ')[0]`.
 */
module Text {

  /** The white space and line terminators that `trim` removes (section 22.1.3.32
      of ECMA-262: WhiteSpace and LineTerminator, with every Zs code point). */
  predicate IsSpace(c: char) {
    || c == '\t' || c == '\n' || c == '\U{000B}' || c == '\U{000C}' || c == '\r'
    || c == ' ' || c == '\U{00A0}' || c == '\U{1680}'
    || ('\U{2000}' <= c <= '\U{200A}')
    || c == '\U{2028}' || c == '\U{2029}' || c == '\U{202F}' || c == '\U{205F}'
    || c == '\U{3000}' || c == '\U{FEFF}'
  }

  predicate AllSpace(s: string) {
    forall i :: 0 <= i < |s| ==> IsSpace(s[i])
  }

  predicate IsLower(c: char) {
    'a' <= c <= 'z'
  }

  /** ASCII upper-casing of one character. */
  function UpperChar(c: char): char {
    if IsLower(c) then (c as int - 32) as char else c
  }

  /** ASCII upper-casing of a string, character by character. */
  function ToUpper(s: string): (r: string)
    ensures |r| == |s|
    ensures forall i :: 0 <= i < |r| ==> !IsLower(r[i])
    ensures forall i :: 0 <= i < |r| && !IsLower(s[i]) ==> r[i] == s[i]
    ensures forall i :: 0 <= i < |r| && IsLower(s[i]) ==> r[i] as int == s[i] as int - 32
  {
    seq(|s|, i requires 0 <= i < |s| => UpperChar(s[i]))
  }

  lemma ToUpperIdempotent(s: string)
    ensures ToUpper(ToUpper(s)) == ToUpper(s)
  {
  }

  /** Upper-casing leaves white space where it was. */
  lemma ToUpperKeepsSpace(s: string, i: nat)
    requires i < |s|
    ensures IsSpace(ToUpper(s)[i]) <==> IsSpace(s[i])
  {
  }

  function TrimStart(s: string): (r: string)
    ensures |r| <= |s| && r == s[|s| - |r|..]
    ensures r == [] || !IsSpace(r[0])
  {
    if s != [] && IsSpace(s[0]) then TrimStart(s[1..]) else s
  }

  function TrimEnd(s: string): (r: string)
    ensures |r| <= |s| && r == s[..|r|]
    ensures r == [] || !IsSpace(r[|r| - 1])
  {
    if s != [] && IsSpace(s[|s| - 1]) then TrimEnd(s[..|s| - 1]) else s
  }

  /** JavaScript's `trim`: it neither starts nor ends with white space. */
  function Trim(s: string): (r: string)
    ensures |r| <= |s|
    ensures r == [] || (!IsSpace(r[0]) && !IsSpace(r[|r| - 1]))
  {
    TrimEnd(TrimStart(s))
  }

  /** `TrimStart` drops a prefix of white space and nothing else. */
  lemma {:induction false} TrimStartDrops(s: string)
    ensures AllSpace(s[..|s| - |TrimStart(s)|])
  {
    if s != [] && IsSpace(s[0]) {
      TrimStartDrops(s[1..]);
      var n := |s| - |TrimStart(s)|;
      assert s[1..][n - 1..] == s[n..];
      assert forall i :: 0 < i < n ==> s[..n][i] == s[1..][..n - 1][i - 1];
    }
  }

  /** `TrimEnd` drops a suffix of white space and nothing else. */
  lemma {:induction false} TrimEndDrops(s: string)
    ensures AllSpace(s[|TrimEnd(s)|..])
  {
    if s != [] && IsSpace(s[|s| - 1]) {
      var p := s[..|s| - 1];
      TrimEndDrops(p);
      var n := |TrimEnd(s)|;
      assert p[..n] == s[..n];
      assert forall i :: 0 <= i < |s| - n - 1 ==> s[n..][i] == p[n..][i];
    }
  }

  /** The trimmed string is the slice of `s` between a white-space prefix and a
      white-space suffix. */
  lemma TrimBounds(s: string) returns (i: nat, j: nat)
    ensures i <= j <= |s| && Trim(s) == s[i..j]
    ensures AllSpace(s[..i]) && AllSpace(s[j..])
  {
    var a := TrimStart(s);
    var r := TrimEnd(a);
    TrimStartDrops(s);
    TrimEndDrops(a);
    i := |s| - |a|;
    j := i + |r|;
    assert r == s[i..j];
    assert s[j..] == a[|r|..];
  }

  /** The trimmed slice encloses any two characters that are not white space. */
  lemma TrimAround(s: string, p: nat, q: nat) returns (i: nat, j: nat)
    requires p <= q < |s| && !IsSpace(s[p]) && !IsSpace(s[q])
    ensures i <= p <= q < j <= |s| && Trim(s) == s[i..j]
  {
    i, j := TrimBounds(s);
    NotSpaceInside(s, i, j, p);
    NotSpaceInside(s, i, j, q);
  }

  /** The trimmed string is a slice of the original. */
  lemma TrimIsSlice(s: string) returns (i: nat, j: nat)
    ensures i <= j <= |s| && Trim(s) == s[i..j]
  {
    i, j := TrimBounds(s);
  }

  lemma NotSpaceInside(s: string, i: nat, j: nat, p: nat)
    requires i <= j <= |s| && AllSpace(s[..i]) && AllSpace(s[j..])
    requires p < |s| && !IsSpace(s[p])
    ensures i <= p < j
  {
  }

  /** A string of white space trims to the empty string, and only such a string does. */
  lemma TrimEmptyIffAllSpace(s: string)
    ensures Trim(s) == [] <==> AllSpace(s)
  {
    if AllSpace(s) {
      BlankTrimStart(s);
    }
    if Trim(s) == [] {
      var i, j := TrimBounds(s);
      forall m | 0 <= m < |s|
        ensures IsSpace(s[m])
      {
        if m < i {
          assert s[..i][m] == s[m];
        } else {
          assert s[j..][m - j] == s[m];
        }
      }
    }
  }

  lemma {:induction false} BlankTrimStart(s: string)
    requires AllSpace(s)
    ensures TrimStart(s) == []
  {
    if s != [] {
      BlankTrimStart(s[1..]);
    }
  }

  /** `split(' ')[0]`: everything before the first ASCII space, or the whole string
      when it has none. Only the space character splits; tabs do not. */
  function FirstWord(s: string): (r: string)
    ensures |r| <= |s| && r == s[..|r|]
    ensures ' ' !in r
    ensures |r| < |s| ==> s[|r|] == ' '
  {
    if s == [] || s[0] == ' ' then [] else [s[0]] + FirstWord(s[1..])
  }
}

=== FILE: wrappers.dfy ===
/** Failure-compatible wrappers shared by every module of the model. */
module Wrappers {

  /** A value that may be absent: Python's `None`, a JavaScript `null`. */
  datatype Option<+T> = None | Some(value: T) {

    /** The wrapped value, or `default` when absent. */
    function GetOr(default: T): T {
      match this
      case Some(v) => v
      case None => default
    }
  }

  /** The outcome of a call that can raise: a value, or the text of the exception. */
  datatype Result<+T> = Ok(value: T) | Err(error: string)
}
